=== FILE: README.md ===
# Job-hunter pipeline: orchestration and noisy-output recovery

A Dafny model of the glue layer in the job-hunting agent pipeline. `run_agent`
runs three stages in order and stops at the first failure:

1. It scouts for listings. A browser agent runs in a child process, and the
   orchestrator cuts a JSON array of objects out of what that child printed.
2. It ranks the listings with a chat model.
3. It tailors an application package for the best match.

Every stage gets text back from a model or an agent. It recovers a JSON
payload from that text with regular expressions and string clean-up:
- fence stripping;
- unescaping;
- double decoding;
- a greedy first-to-last slice.

It then decodes the payload. The model covers that recovery logic, the
keyword normalisation of the scout, and the fail-fast sequencing.

Modules, one file each:

- `Wrappers` (`wrappers.dfy`): `Option` and `Result`.
- `Text` (`text.dfy`): the Python string operations the code relies on, on
  `seq<char>`:
  - `str.strip()` and `str.strip(chars)`;
  - `startswith`;
  - substring `in`;
  - `replace(p, "")`;
  - `lower()`, for the characters that matter to ASCII phrases.
- `JsonModel` (`json.dfy`):
  - the decoded values;
  - Python truthiness;
  - `obj[key]` (the last member with that name).

  `json.loads` is a parameter, `Parser`.
- `Failures` (`failures.dfy`): the exceptions the model covers, their messages,
  and the stage each belongs to.
- `Extraction` (`extraction.dfy`): the three regular-expression searches.
  Each one has two definitions, and lemmas prove they agree:
  - the regex semantics: the set of matching spans, with `re.search` taking
    the leftmost start and, for these greedy patterns, the longest end;
  - the computable first-opening / last-closing scan.
- `Scout` (`scout.dfy`): `scout_jobs` inside its child process. It covers:
  - the keyword rules;
  - the empty-result check;
  - fence removal;
  - unescaping;
  - double decoding;
  - the list check.
- `Analyst` (`analyst.dfy`): `rank_jobs`.
- `Tailor` (`tailor.dfy`): `tailor_application`.
- `Pipeline` (`pipeline.dfy`):
  - the scout script's entry point;
  - step 1 of `run_agent`;
  - the selection of the best match and alternatives;
  - the whole run, with the list of stage calls made.

External calls are parameters of the model: the browser agent, the two chat
models, `json.loads`, the `unicode_escape` codec, `json.dumps` and the child
process. The résumé file is an `Option<string>`, with `None` when the file
does not exist.

The code promises more in its own comments than it does, and the model follows
what it does. `extract_json_array` is documented to "Extract first valid JSON
array" (pipeline.py:11), and `rank_jobs` to return "sorted jobs with
match_score" (agents/analyst.py:17). Instead:

- The extractors slice greedily from the first opening to the last closing.
  They do not match balanced brackets.
- The ranking is returned as the model produced it. It is not re-sorted and
  its shape is not checked.
- The tailored package is not checked for shape.
- The alternatives are the next two ranked items, whatever they are. They may
  repeat the best match (`Pipeline.RepeatedItemKept`).
- The scout's empty listing never reaches the "No jobs found." check. The child
  prints `[]`, which has no `[`, whitespace, `{` opening, so step 1 reports
  "Could not extract JSON from Scout" instead (`Pipeline.EmptyListingNotExtracted`).
  The check is reached only by a block that matches the pattern and yet decodes
  to a falsy value.

## Model

| member | source | states |
|---|---|---|
| Extraction.ExtractJsonArray | pipeline.py:9-16 | None exactly when `\[\s*{.*}\s*\]` matches nowhere. Otherwise: a slice of the text that is a match, with no match starting further left and no match at the same start ending later. |
| Extraction.ScanMeetsSearch | pipeline.py:13-15 | The scan (first `[`-whitespace-`{`, last `}`-whitespace-`]`) fails exactly when the pattern matches nowhere. When it succeeds, it cuts the span `re.search` reports. |
| Extraction.ScanFindsSearchResult | pipeline.py:13 | When the scan succeeds, its span is a match, and it is leftmost and then longest among all matches. |
| Extraction.AnyMatchMeetsScan | pipeline.py:13-15 | If the pattern matches anywhere, the scan finds an opening whose `{` lies before the last closing. |
| Extraction.SpanParts | pipeline.py:13 | Every match is an opening at its start plus a closing whose `]` is its last character, with the `{` before the `}`. |
| Extraction.SpanBoundedByScan | pipeline.py:13 | Any match starts no earlier than the scan's opening. A match at that same start ends no later than the scan's end. |
| Extraction.ScanIsSpan | pipeline.py:13 | An opening followed by a later closing delimits a match. |
| Extraction.ArraySpanShift | pipeline.py:13-16 | A match cut out of its text is a match of the whole of itself. |
| Extraction.ScannedIsWhole | pipeline.py:13-16 | The block returned starts with `[`, whitespace and `{`, ends with `}`, whitespace and `]`, and as a whole matches the pattern. |
| Extraction.WholeArraySpan | pipeline.py:13-16 | A text that is one whole match is returned unchanged. |
| Extraction.ExtractJsonArrayIdempotent | pipeline.py:9-16 | Extracting from an extracted block returns that block. |
| Extraction.ArrayInContext | pipeline.py:9-16 | Leading text followed by one whole match yields exactly that match, provided the leading text holds no opening (`[`, whitespace, `{`) of its own. A `[` followed by anything else, as in `[agent]`, is allowed. |
| Extraction.OpensInPrefix | pipeline.py:13 | An opening inside leading text that is followed by a `[` is an opening of the leading text alone. |
| Extraction.OpensInSuffix | pipeline.py:13 | An opening in a tail of a text is an opening of the whole text, at the shifted index. |
| Extraction.EmptyArrayUnmatched | pipeline.py:13-15 | Leading text with no opening followed by `[]` has no match at all. |
| Extraction.FirstToLast | agents/analyst.py:87-91 | `open .* close` under DOTALL: None exactly when no `open` has a `close` after it. Otherwise the leftmost-longest match. |
| Extraction.FirstToLastOutermost | agents/tailor.py:141-146 | The slice found starts with `open` and ends with `close`. No `open` lies before it and no `close` after it. |
| Extraction.WholeDelimSpan | agents/tailor.py:141-146 | A text that opens with `open` and ends with `close` is sliced unchanged. |
| Extraction.FirstToLastIdempotent | agents/analyst.py:87-91 | Slicing a slice again returns it unchanged. |
| Extraction.DelimInContext | agents/analyst.py:87-91 | Prose around a bracketed payload is dropped, provided it has no `open` before and no `close` after. |
| Scout.SearchKeyword | agents/scout.py:18-27 | The keyword of the first of "machine learning", "data science", "backend", "ai" found in the lower-cased query. If none is found, the query with surrounding whitespace removed. |
| Scout.MachineLearningWins | agents/scout.py:18-21 | A query naming both machine learning and data science searches for "Machine Learning". |
| Scout.AiInsideAWord | agents/scout.py:24-25 | "ai" is a bare substring test: "Email Intern" searches for "Artificial Intelligence". |
| Scout.FirstPhraseExists | agents/scout.py:18-25 | If some phrase occurs, there is a first one, so one rule fires. |
| Scout.ArtificialIntelligencePassesThrough | agents/scout.py:24-27 | "Artificial Intelligence" contains none of the four phrases ("ai" included), so it reaches the fallback branch. |
| Scout.KeywordFixed | agents/scout.py:18-27 | Each of the four keywords normalises to itself. |
| Scout.PassThroughStable | agents/scout.py:26-27 | A query matching no rule still matches none once trimmed, and trimming it again changes nothing. |
| Scout.SearchKeywordIdempotent | agents/scout.py:18-27 | Normalising a normalised keyword gives the same keyword. |
| Scout.StripFences | agents/scout.py:92-96 | Text that does not open with "```" once trimmed is only trimmed. Fenced text has no "```" left. The result is always trimmed. |
| Scout.FencedListing | agents/scout.py:95-96 | "```json" + payload + "```" becomes the payload trimmed when the payload holds no "```" of its own. Single backticks, such as an inline code span, are kept. |
| Scout.NoTagInPayload | agents/scout.py:96 | A payload with no "```" of its own, followed by its closing fence, contains no "```json". |
| Scout.FenceRemovalClean | agents/scout.py:96 | After every "```" is deleted, the trimmed text has no "```". |
| Scout.Unescaped | agents/scout.py:99-100 | The decoder is applied exactly when some backslash is immediately followed by a double quote. Text with no such pair is returned as it is. |
| Scout.DecodeJobs | agents/scout.py:102-114 | A list from the first decode is returned. So is a list from decoding, once more, a string the first decode produced. "malformed JSON" exactly when a decode fails. Any other result is "not a list". |
| Scout.EncodedListingDecodes | agents/scout.py:102-107 | A list printed as JSON once, or printed and then printed again as a JSON string, decodes back to that list. This holds for a decoder that reads back what the printer wrote. It is a property of `DecodeJobs` alone: inside `scout_jobs` a doubly printed list of objects contains `\"`, so it first goes through the `unicode_escape` codec (agents/scout.py:99-100), which is a parameter. |
| Scout.TripleEncodedIsNotAList | agents/scout.py:106-114 | Decoding stops after the second parse: a string that decodes to a string is reported as not a list. |
| Scout.ScoutJobs | agents/scout.py:85-116 | "did not return final result" exactly when the agent's result is missing or empty. For any other result, a failed unescape gives its error. Otherwise the result is the decode of the cleaned, unescaped text. Only the four scout errors are modelled. |
| Scout.FencedReplyDecodes | agents/scout.py:85-116 | An agent result fenced as "```json" … "```", with no "```" and no backslash inside, is decoded from its trimmed payload. |
| Analyst.RankJobs | agents/analyst.py:20-99 | Missing résumé exactly when the file is absent. "did not return JSON" exactly when the trimmed reply has no `[`...`]` match. A failed parse gives "Failed to parse". Otherwise the decoded match is returned unchanged. |
| Analyst.RankJobsIgnoresProse | agents/analyst.py:83-99 | A reply that, once trimmed, is one array with prose around it (no `[` before, no `]` after) is decoded from the array alone. |
| Analyst.RankJobsPassesEmptyList | agents/analyst.py:93-99 | The decoded value is not checked: a reply of "[]" yields an empty list. |
| JsonModel.LookupLast | agents/tailor.py:52-58 | `job[key]`: None exactly when no member has the key. Otherwise the value of a member with that key that no later member shares. |
| Tailor.MissingField | agents/tailor.py:52-58 | None exactly when title, company and description are all present. Otherwise the first of them, in that order, that is absent. |
| Tailor.CleanReply | agents/tailor.py:132-137 | A reply that does not open with "```" once trimmed is only trimmed. From a fenced reply, backticks and only backticks are cut from both ends; then every "json" is deleted and the rest trimmed. The result is always trimmed. |
| Tailor.FencedPayload | agents/tailor.py:135-137 | "```" + payload + "```" becomes the payload with every "json" deleted, then trimmed. The payload must be non-empty and neither start nor end with a backtick. |
| Tailor.FenceOpened | agents/tailor.py:136 | The character-set strip of backticks leaves exactly the payload between the fences. The payload must be non-empty and neither start nor end with a backtick. |
| Tailor.FencedPayloadAltered | agents/tailor.py:137 | The deletion changes a fenced payload exactly when it contains "json" anywhere. A payload without "json" comes out only trimmed. |
| Tailor.TailorApplication | agents/tailor.py:26-155 | Errors are checked in this order: missing résumé, listing not an object, first missing field, no `{`...`}` match in the cleaned reply, failed parse. A missing-field error occurs only for the first absent field. Otherwise the decoded match is returned unchanged. |
| Text.TrimBy | agents/tailor.py:136 | The result is the input with the droppable characters cut from both ends, and no droppable character left at either end. |
| Text.TrimByIdempotent | agents/scout.py:92 | Stripping twice is stripping once. |
| Text.ContainsAt | agents/scout.py:18-24 | Substring `in` holds exactly when the phrase occurs at some index. |
| Text.RemoveAllUnchanged | agents/tailor.py:137 | `replace(p, "")` changes a string exactly when `p` occurs in it. |
| Text.RemoveFenceLeavesNone | agents/scout.py:96 | After `replace("```", "")` no "```" is left. |
| Text.RemoveTrailingFence | agents/scout.py:96 | Deleting "```" from a text with no "```" of its own followed by "```" leaves the text. This holds even when the text ends in one or two backticks. |
| Text.StripAround | pipeline.py:32 | Take earlier lines, then a block that neither starts nor ends with whitespace, then a newline. Stripping keeps the block, preceded by the earlier lines without their leading whitespace. |
| Text.SkipSpaces | pipeline.py:13 | The end of the `\s*` run: all whitespace before it, non-whitespace at it. |
| Text.LowerPointwise | agents/scout.py:18 | Without U+0130, `lower()` maps each character to its lower-case form and keeps the length. |
| Pipeline.CollectJobs | pipeline.py:24-48 | A failed child gives "Scout process failed" with its error stream. "Could not extract" exactly when the trimmed output has no array match. "Invalid JSON" exactly when the block does not decode, and both messages carry the trimmed output. "No jobs found." exactly when the block decodes to a falsy value. A block that decodes to a truthy value is returned. |
| Pipeline.ScoutMessageLost | pipeline.py:41-42 | When the child fails, the error carries only its error stream. The scout's own message, printed to standard output after its logs, is dropped. |
| Pipeline.ListingsReachTheOrchestrator | agents/scout.py:127-129 | The listings the child prints come back unchanged from step 1. This holds when `json.dumps` writes them as one `[`…`{`…`}`…`]` block that `json.loads` reads back, and nothing printed before holds an opening (`[`, whitespace, `{`). Bracketed log text such as `[agent]` is allowed. |
| Pipeline.EmptyListingNotExtracted | pipeline.py:32-48 | An empty listing, printed as `[]` after logs with no opening, makes step 1 raise "Could not extract JSON from Scout" with the trimmed output. It never gets to "No jobs found.". |
| Pipeline.Pick | pipeline.py:55-59 | A falsy ranking gives "Ranking failed.". A list gives its first item, and that item followed by the alternatives is the list's first three items. A string is indexed by character: the best match is its first character alone. Any other value cannot be indexed. No other error can occur. |
| Pipeline.PickList | pipeline.py:58-59 | The best match is the first item. There are min(2, n-1) alternatives, and they are the items right after it, in order. |
| Pipeline.TailorStep | pipeline.py:64-70 | The tailoring call is made with the best match only. The run fails exactly when tailoring fails, and reports tailoring's own error. Success returns that match, the tailored package and the alternatives. |
| Pipeline.TailorStepSucceeds | pipeline.py:64-70 | When tailoring succeeds, the run returns the best match, the package tailored for it and the alternatives. It has made the ranking call and then the tailoring call. |
| Pipeline.RankAndTailor | pipeline.py:53-70 | Ranking is always called first. A ranking error, or an error picking from the ranking, ends the run after that one call with that error. Otherwise exactly two calls are made, and the second is tailoring of the picked best match. |
| Pipeline.RankedListTailored | pipeline.py:53-64 | A ranking that is a non-empty list goes on to tailoring with its first item as the best match and the next up to two items as the alternatives. |
| Pipeline.RunAgent | pipeline.py:19-70 | A scouting failure makes no stage call and is the run's error. Otherwise the scouted listings are ranked first and then tailored. A failed run has invoked exactly the stages up to and including the one that failed. A successful run has called ranking and then tailoring. |
| Pipeline.RankAndTailorFailsFast | pipeline.py:53-64 | After scouting, a failure comes after as many calls as its stage requires. Success takes two calls. |
| Pipeline.FalsyRankingStops | pipeline.py:55-56 | An empty or falsy ranking raises "Ranking failed." after the ranking call, and tailoring is never called. |
| Pipeline.RankAndTailorSuccess | pipeline.py:53-70 | If the run succeeds, the ranking is a non-empty list. The run is the tailoring step on its first item, with the next up to two items as alternatives. |
| Pipeline.StringRankingFails | pipeline.py:58-64 | A string ranking picks its first character, and tailoring then fails on it. |
| Pipeline.TailoredIsObject | agents/tailor.py:52-58 | Tailoring succeeds only on a listing that is an object. |
| Pipeline.RepeatedItemKept | pipeline.py:58-59 | A ranking that repeats its first item gives that item again as an alternative. |

## Left out

- The browser agent, the chat models and the child process are not modelled; they are parameters. Only their results matter: the agent's final result, each model's reply as a function of what its prompt embeds, and how the child ended.
- The prompt wording is not modelled. Only what each prompt embeds is a parameter of the model call.
- `json.loads`, the `unicode_escape` codec and `json.dumps` are parameters, not modelled. Their internals belong to the standard library.
- The résumé file I/O is not modelled. Both stages are given the same `Option<string>`: the file is assumed not to change between the two reads.
- `asyncio`, the event loop and `subprocess.run`'s capture of the streams are not modelled. The child's run is a `ProcessOutcome`.
- The CLI's default query (`sys.argv[1]` or "Machine Learning Intern", agents/scout.py:125) is not modelled, because `run_agent` always passes the query.
- The `__main__` blocks of pipeline.py and agents/tailor.py are not modelled; they are sample runs that print.
- The printing of raw output before the parse-failure exceptions in the analyst and the tailor is not modelled; it is I/O on the orchestrator's own output. In the scout child it is part of `logs`.
- Exceptions raised by the foreign calls are not modelled: the agent's construction and `agent.run()` (agents/scout.py:81-85), and `client.chat.completions.create` (agents/analyst.py:74-81, agents/tailor.py:123-130). In the child, the CLI catches the agent's exceptions like the scout's own (agents/scout.py:130-132), so the orchestrator sees "Scout process failed". The chat calls' exceptions propagate out of `run_agent` uncaught, ending the run at that stage. The model's calls always return.
- A chat reply with no content is not modelled. `RankModel` and `TailorModel` always return a string. When `message.content` is None, `.strip()` raises `AttributeError` after the résumé check (agents/analyst.py:83, agents/tailor.py:132). That error is missing from both stages' error cases.
- app.py and runner.py are not part of this model; they are presentation and a wrapper.
- JSON numbers are integers. Floating point is not modelled; the pipeline only tests numbers for truthiness.
- Text.Lower: lower-cases only A-Z, U+0130 and U+212A, and keeps every other character. These are the only characters whose Python lower case contains an ASCII letter, so containment of the four ASCII phrases is exact, but `Lower` is not Python's full `lower()`.
- Failures.Message: for the exceptions Python itself raises (indexing a non-indexable ranking, subscripting a non-object listing, a missing key, a failing unicode-escape decode), the text is the exception's class or key. Python's exact wording is not modelled.
- Tailor.Field: a key that is absent gives `JNull`, but it is only read after `MissingField` has found all three keys present. How Python formats the values into the prompt is folded into the model parameter.
- Pipeline.ScoutEntryPoint: everything the child prints before its last line is one parameter, `logs`. This covers the agent library's logging and the scout's own "Raw Scout Output" diagnostic, whose content is not modelled. The function states no contract of its own; `ListingsReachTheOrchestrator` and `ScoutMessageLost` state what the orchestrator makes of its output.
- Scout.StripFences: the contract does not say what the deletion keeps for an arbitrary fenced text. `Scout.FencedListing` states it for a "```json" fence around a payload with no "```" of its own.
- Scout.Unescaped: the decoder's result is a parameter. Its rewriting of escapes, such as turning `\"` inside JSON strings into a bare quote, is not modelled.
- Pipeline.RankAndTailorSuccess: the package returned is stated through `TailorStep`'s contract rather than repeated. `Pipeline.RankedListTailored` and `Pipeline.TailorStepSucceeds` state the converse, that a non-empty list ranking and a successful tailoring give that result. `RunAgent`'s contract lifts both from the scouted listings to the whole run.

=== FILE: analyst.dfy ===
/** The ranking stage (`rank_jobs`): the model is shown the query, the
    résumé and the listings, and the first-`[`-to-last-`]` slice of its reply
    is decoded and returned as it stands. */
module Analyst {
  import opened Wrappers
  import opened Text
  import opened JsonModel
  import opened Failures
  import opened Extraction

  /** The chat model: its reply to a prompt built from the résumé, the query
      and the listings. The prompt's fixed wording is not modelled. */
  type RankModel = (string, string, Json) -> string

  /** The reply with surrounding whitespace removed, as the stage reads it. */
  function Reply(resume: string, jobs: Json, query: string, model: RankModel): string {
    Strip(model(resume, query, jobs))
  }

  /** `rank_jobs`. `resume` is the résumé file's text, or None when the file
      does not exist; whatever the decoder returns is the result, list or not. */
  function RankJobs(jobs: Json, query: string, resume: Option<string>, model: RankModel, parse: Parser): (r: Result<Json, Failure>)
    ensures resume.None? <==> r == Err(AnalystResumeMissing)
    ensures resume.Some? ==>
              (r == Err(AnalystNoJson) <==> !HasDelimSpan(Reply(resume.value, jobs, query, model), '[', ']'))
    ensures r.Ok? ==>
              resume.Some? && MatchDecodesTo(Reply(resume.value, jobs, query, model), '[', ']', parse, Some(r.value))
    ensures r == Err(AnalystBadJson) ==>
              resume.Some? && MatchDecodesTo(Reply(resume.value, jobs, query, model), '[', ']', parse, None)
    ensures r.Err? ==> r.error.AnalystResumeMissing? || r.error.AnalystNoJson? || r.error.AnalystBadJson?
  {
    match resume
    case None => Err(AnalystResumeMissing)
    case Some(text) =>
      var raw := Reply(text, jobs, query, model);
      var m := FirstToLast(raw, '[', ']');
      if m.None? then Err(AnalystNoJson)
      else
        assert MatchDecodesTo(raw, '[', ']', parse, parse(m.value));
        if parse(m.value).None? then Err(AnalystBadJson) else Ok(parse(m.value).value)
  }

  /** A reply that, once trimmed, is one array with prose around it (no `[`
      before, no `]` after) is decoded from the array alone. */
  lemma RankJobsIgnoresProse(jobs: Json, query: string, resume: string, model: RankModel, parse: Parser,
                             before: string, body: string, after: string)
    requires Strip(model(resume, query, jobs)) == before + body + after
    requires DelimSpan(body, '[', ']', 0, |body|)
    requires '[' !in before && ']' !in after
    ensures RankJobs(jobs, query, Some(resume), model, parse) ==
              match parse(body)
              case None => Err(AnalystBadJson)
              case Some(ranked) => Ok(ranked)
  {
    DelimInContext(before, body, after, '[', ']');
  }

  /** The stage does not check what it decoded: a reply whose brackets hold
      an empty list yields an empty list. */
  lemma RankJobsPassesEmptyList(jobs: Json, query: string, resume: string, model: RankModel, parse: Parser)
    requires model(resume, query, jobs) == "[]" && parse("[]") == Some(JArray([]))
    ensures RankJobs(jobs, query, Some(resume), model, parse) == Ok(JArray([]))
  {
    assert TrimmedAt("[]", "[]", IsSpace, 0);
    TrimByUnique("[]", "[]", IsSpace, 0);
    WholeDelimSpan("[]", '[', ']');
  }
}

=== FILE: extraction.dfy ===
/** The noisy-text extractors: the three regular-expression searches that cut a
    JSON payload out of a reply. Each search is stated twice: as the set of
    spans the pattern matches (the regex semantics, with Python's `re.search`
    taking the leftmost start and, for these greedy patterns, the longest end
    at that start), and as a scan for a first opening and a last closing. */
module Extraction {
  import opened Wrappers
  import opened Text

  // ---------------------------------------------------------------------
  // `\[\s*{.*}\s*\]` with DOTALL (the orchestrator's array extractor)
  // ---------------------------------------------------------------------

  /** `[`, whitespace, `{` at `j`, anything, `}` at `k`, whitespace, `]` at `e - 1`. */
  ghost predicate BracesAt(t: string, i: int, j: int, k: int, e: int) {
    && 0 <= i < j < k < e - 1 < |t|
    && (forall x :: i < x < j ==> SpaceAt(t, x)) && t[j] == '{'
    && t[k] == '}' && (forall x :: k < x < e - 1 ==> SpaceAt(t, x))
  }

  /** `t[i..e]` is a match of the array-of-objects pattern. */
  ghost predicate ArraySpan(t: string, i: int, e: int) {
    && 0 <= i < e <= |t|
    && t[i] == '[' && t[e - 1] == ']'
    && exists j, k :: BracesAt(t, i, j, k, e)
  }

  ghost predicate HasArraySpan(t: string) {
    exists i, e :: ArraySpan(t, i, e)
  }

  /** The span `re.search` reports: no match starts earlier, and none at the
      same start ends later. */
  ghost predicate ArraySearchResult(t: string, i: int, e: int) {
    && ArraySpan(t, i, e)
    && forall i', e' :: ArraySpan(t, i', e') ==> i < i' || (i == i' && e' <= e)
  }

  /** A `[` whose following whitespace run ends in `{`. */
  predicate OpensAt(t: string, i: int) {
    && 0 <= i < |t| && t[i] == '['
    && SkipSpaces(t, i + 1) < |t| && t[SkipSpaces(t, i + 1)] == '{'
  }

  /** A `}` whose following whitespace run ends in `]`. */
  predicate ClosesAt(t: string, k: int) {
    && 0 <= k < |t| && t[k] == '}'
    && SkipSpaces(t, k + 1) < |t| && t[SkipSpaces(t, k + 1)] == ']'
  }

  function FirstOpening(t: string, from: nat): (i: nat)
    requires from <= |t|
    ensures from <= i <= |t|
    ensures i < |t| ==> OpensAt(t, i)
    ensures forall x :: from <= x < i ==> !OpensAt(t, x)
    decreases |t| - from
  {
    if from < |t| && !OpensAt(t, from) then FirstOpening(t, from + 1) else from
  }

  function LastClosing(t: string, upto: nat): (k: int)
    requires upto <= |t|
    ensures -1 <= k < upto
    ensures k >= 0 ==> ClosesAt(t, k)
    ensures forall x :: k < x < upto ==> !ClosesAt(t, x)
    decreases upto
  {
    if upto == 0 then -1 else if ClosesAt(t, upto - 1) then upto - 1 else LastClosing(t, upto - 1)
  }

  /** Every match decomposes into an opening at its start and a closing whose
      `]` is its last character, with the opening's `{` before the closing's `}`. */
  lemma SpanParts(t: string, i: int, e: int) returns (k: int)
    requires ArraySpan(t, i, e)
    ensures OpensAt(t, i) && ClosesAt(t, k)
    ensures SkipSpaces(t, i + 1) < k && SkipSpaces(t, k + 1) == e - 1
  {
    var j, k' :| BracesAt(t, i, j, k', e);
    k := k';
    SkipSpacesUnique(t, i + 1, j);
    SkipSpacesUnique(t, k + 1, e - 1);
  }

  /** No opening lies before the scan's first one. */
  lemma FirstOpeningIsFirst(t: string, x: int)
    requires OpensAt(t, x)
    ensures FirstOpening(t, 0) <= x
  {
  }

  /** No closing lies after the scan's last one. */
  lemma LastClosingIsLast(t: string, x: int)
    requires ClosesAt(t, x)
    ensures x <= LastClosing(t, |t|)
  {
  }

  /** Where any match exists, the scan finds an opening no later than it, whose
      `{` precedes the last closing, and a match at the same start ends no later
      than the last closing's `]`. */
  lemma SpanBoundedByScan(t: string, i': int, e': int)
    requires ArraySpan(t, i', e')
    ensures var i, k := FirstOpening(t, 0), LastClosing(t, |t|);
            && i <= i' && i < |t| && 0 <= k && SkipSpaces(t, i + 1) < k
            && (i == i' ==> e' <= SkipSpaces(t, k + 1) + 1)
  {
    var k' := SpanParts(t, i', e');
    var i, k := FirstOpening(t, 0), LastClosing(t, |t|);
    BoundsFromParts(t, i', k', i, k);
  }

  lemma BoundsFromParts(t: string, i': int, k': int, i: nat, k: int)
    requires OpensAt(t, i') && ClosesAt(t, k') && SkipSpaces(t, i' + 1) < k'
    requires i == FirstOpening(t, 0) && k == LastClosing(t, |t|)
    ensures i <= i' && k' <= k
    ensures SkipSpaces(t, i + 1) < k && SkipSpaces(t, k' + 1) <= SkipSpaces(t, k + 1)
  {
    FirstOpeningIsFirst(t, i');
    LastClosingIsLast(t, k');
    SkipSpacesMonotone(t, i + 1, i' + 1);
    SkipSpacesMonotone(t, k' + 1, k + 1);
  }

  /** The scan's opening and last closing delimit a match. */
  lemma ScanIsSpan(t: string, i: nat, k: int)
    requires i < |t| && OpensAt(t, i) && 0 <= k && ClosesAt(t, k) && SkipSpaces(t, i + 1) < k
    ensures ArraySpan(t, i, SkipSpaces(t, k + 1) + 1)
  {
    var j, e := SkipSpaces(t, i + 1), SkipSpaces(t, k + 1) + 1;
    assert BracesAt(t, i, j, k, e);
  }

  /** When the scan succeeds, its span is the one `re.search` reports. */
  lemma ScanFindsSearchResult(t: string, i: nat, k: int)
    requires i == FirstOpening(t, 0) && k == LastClosing(t, |t|)
    requires i < |t| && 0 <= k && SkipSpaces(t, i + 1) < k
    ensures ArraySearchResult(t, i, SkipSpaces(t, k + 1) + 1)
  {
    var e := SkipSpaces(t, k + 1) + 1;
    ScanIsSpan(t, i, k);
    forall i', e' | ArraySpan(t, i', e') ensures i <= i' && e' <= e {
      var k' := SpanParts(t, i', e');
      BoundsFromParts(t, i', k', i, k);
    }
  }

  /** Any match at all makes the scan succeed. */
  lemma AnyMatchMeetsScan(t: string)
    ensures var i, k := FirstOpening(t, 0), LastClosing(t, |t|);
            HasArraySpan(t) ==> i < |t| && 0 <= k && SkipSpaces(t, i + 1) < k
  {
    if HasArraySpan(t) {
      var i', e' :| ArraySpan(t, i', e');
      SpanBoundedByScan(t, i', e');
    }
  }

  /** `extract_json_array`: the text `re.search` finds for the array-of-objects
      pattern, or None when the pattern matches nowhere. */
  function ExtractJsonArray(t: string): (r: Option<string>)
    ensures r.None? <==> !HasArraySpan(t)
    ensures r.Some? ==> exists i, e :: ArraySearchResult(t, i, e) && r.value == t[i..e]
  {
    ScanMeetsSearch(t);
    ScanArray(t)
  }

  /** The scan: from the first opening to the `]` after the last closing,
      when the opening's `{` comes before that closing. */
  function ScanArray(t: string): Option<string> {
    var i := FirstOpening(t, 0);
    var k := LastClosing(t, |t|);
    if i < |t| && 0 <= k && SkipSpaces(t, i + 1) < k then Some(t[i..SkipSpaces(t, k + 1) + 1]) else None
  }

  /** The scan finds exactly what `re.search` reports. */
  lemma ScanMeetsSearch(t: string)
    ensures ScanArray(t).None? <==> !HasArraySpan(t)
    ensures ScanArray(t).Some? ==> exists i, e :: ArraySearchResult(t, i, e) && ScanArray(t).value == t[i..e]
  {
    var i := FirstOpening(t, 0);
    var k := LastClosing(t, |t|);
    if i < |t| && 0 <= k && SkipSpaces(t, i + 1) < k {
      ScanFindsSearchResult(t, i, k);
    } else {
      AnyMatchMeetsScan(t);
    }
  }

  /** A match, cut out of its text, is a match of the whole of itself. */
  lemma ArraySpanShift(t: string, i: int, e: int)
    requires ArraySpan(t, i, e)
    ensures ArraySpan(t[i..e], 0, e - i)
  {
    var j, k :| BracesAt(t, i, j, k, e);
    var b := t[i..e];
    forall x | 0 < x < e - i - 1 ensures b[x] == t[x + i] && (SpaceAt(t, x + i) ==> SpaceAt(b, x)) { }
    assert BracesAt(b, 0, j - i, k - i, e - i);
  }

  /** A text that is itself one whole match is extracted unchanged. */
  lemma WholeArraySpan(b: string)
    requires ArraySpan(b, 0, |b|)
    ensures ExtractJsonArray(b) == Some(b)
  {
    assert HasArraySpan(b);
    var r := ExtractJsonArray(b);
    var i2, e2 :| ArraySearchResult(b, i2, e2) && r.value == b[i2..e2];
    assert 0 < i2 || (0 == i2 && |b| <= e2);
    assert b[i2..e2] == b;
  }

  /** Leading text with no opening (`[`, whitespace, `{`) of its own is
      skipped: a text ending in one whole match yields that match. A `[` in
      the leading text followed by anything else, `[agent]` say, is passed. */
  lemma ArrayInContext(q: string, d: string)
    requires ArraySpan(d, 0, |d|) && forall x :: 0 <= x < |q| ==> !OpensAt(q, x)
    ensures ExtractJsonArray(q + d) == Some(d)
  {
    var t := q + d;
    ArraySpanAfter(q, d);
    var r := ExtractJsonArray(t);
    var i, e :| ArraySearchResult(t, i, e) && r.value == t[i..e];
    assert i <= |q|;
    NoMatchInPrefix(q, d, i, e);
    assert ArraySpan(t, |q|, |t|) && e == |t|;
    assert t[|q|..|t|] == d;
  }

  /** A match cannot start inside text that holds no `[`. */
  lemma NoMatchInPrefix(q: string, d: string, i: int, e: int)
    requires ArraySpan(q + d, i, e) && i <= |q|
    requires d != [] && d[0] == '['
    requires forall x :: 0 <= x < |q| ==> !OpensAt(q, x)
    ensures i == |q|
  {
    var k := SpanParts(q + d, i, e);
    if i < |q| {
      OpensInPrefix(q, d, i);
    }
  }

  /** An opening after a cut is an opening of the whole text. */
  lemma OpensInSuffix(s: string, a: nat, x: int)
    requires a <= |s| && OpensAt(s[a..], x)
    ensures OpensAt(s, x + a)
  {
    var u := s[a..];
    var j := SkipSpaces(u, x + 1);
    forall y | x + a + 1 <= y < j + a ensures SpaceAt(s, y) {
      assert SpaceAt(u, y - a) && u[y - a] == s[y];
    }
    assert u[j] == s[j + a];
    SkipSpacesUnique(s, x + a + 1, j + a);
  }

  /** An opening inside the leading text is an opening of that text alone:
      its whitespace run cannot reach past it, since the text that follows
      starts with `[`, not `{`. */
  lemma OpensInPrefix(q: string, d: string, i: int)
    requires 0 <= i < |q| && OpensAt(q + d, i) && d != [] && d[0] == '['
    ensures OpensAt(q, i)
  {
    var t := q + d;
    var j := SkipSpaces(t, i + 1);
    assert t[|q|] == '[';
    assert !SpaceAt(t, |q|);
    forall x | i + 1 <= x < j ensures SpaceAt(q, x) {
      assert SpaceAt(t, x) && t[x] == q[x];
    }
    assert q[j] == t[j];
    SkipSpacesUnique(q, i + 1, j);
  }

  /** The empty list `[]` holds no opening, so leading text with none of its
      own followed by `[]` has nothing the pattern matches. */
  lemma EmptyArrayUnmatched(q: string)
    requires forall x :: 0 <= x < |q| ==> !OpensAt(q, x)
    ensures !HasArraySpan(q + "[]")
  {
    var t := q + "[]";
    forall i, e | ArraySpan(t, i, e) ensures OpensAt(t, i) {
      var k := SpanParts(t, i, e);
    }
    assert t[|q|] == '[' && t[|q| + 1] == ']';
    assert !SpaceAt(t, |q| + 1);
    forall x | 0 <= x < |t| ensures !OpensAt(t, x) {
      if x < |q| && OpensAt(t, x) {
        OpensInPrefix(q, "[]", x);
      }
    }
  }

  /** A whole match stays a match after any prefix. */
  lemma ArraySpanAfter(q: string, d: string)
    requires ArraySpan(d, 0, |d|)
    ensures ArraySpan(q + d, |q|, |q| + |d|)
  {
    var t := q + d;
    var j, k :| BracesAt(d, 0, j, k, |d|);
    assert forall x :: 0 <= x < |d| ==> t[|q| + x] == d[x];
    forall x | |q| < x < |q| + j ensures SpaceAt(t, x) {
      assert SpaceAt(d, x - |q|);
    }
    forall x | |q| + k < x < |t| - 1 ensures SpaceAt(t, x) {
      assert SpaceAt(d, x - |q|);
    }
    assert BracesAt(t, |q|, |q| + j, |q| + k, |t|);
  }

  /** The extractor's output is a match of the whole of itself. */
  lemma ScannedIsWhole(t: string)
    requires ScanArray(t).Some?
    ensures ArraySpan(ScanArray(t).value, 0, |ScanArray(t).value|)
  {
    var i, k := FirstOpening(t, 0), LastClosing(t, |t|);
    var e := SkipSpaces(t, k + 1) + 1;
    ScanIsSpan(t, i, k);
    ArraySpanShift(t, i, e);
    assert ScanArray(t).value == t[i..e];
  }

  /** Running the extractor on its own output returns that output. */
  lemma ExtractJsonArrayIdempotent(t: string)
    requires ExtractJsonArray(t).Some?
    ensures ExtractJsonArray(ExtractJsonArray(t).value) == ExtractJsonArray(t)
  {
    ScannedIsWhole(t);
    WholeArraySpan(ScanArray(t).value);
  }

  // ---------------------------------------------------------------------
  // `open .* close` with DOTALL (the analyst's `\[.*\]`, the tailor's `\{.*\}`)
  // ---------------------------------------------------------------------

  /** `t[i..e]` is a match of `open .* close`. */
  ghost predicate DelimSpan(t: string, open: char, close: char, i: int, e: int) {
    0 <= i && i + 2 <= e <= |t| && t[i] == open && t[e - 1] == close
  }

  ghost predicate HasDelimSpan(t: string, open: char, close: char) {
    exists i, e :: DelimSpan(t, open, close, i, e)
  }

  ghost predicate DelimSearchResult(t: string, open: char, close: char, i: int, e: int) {
    && DelimSpan(t, open, close, i, e)
    && forall i', e' :: DelimSpan(t, open, close, i', e') ==> i < i' || (i == i' && e' <= e)
  }

  /** The `open .* close` match of `t` decodes to `v` (None: fails to decode). */
  ghost predicate MatchDecodesTo<V>(t: string, open: char, close: char, parse: string -> Option<V>, v: Option<V>) {
    exists i, e :: DelimSearchResult(t, open, close, i, e) && parse(t[i..e]) == v
  }

  /** The text from the first `open` through the last `close`, when the first
      `open` comes before the last `close`; this is what `re.search` reports
      for `open .* close`, and None exactly when that pattern matches nowhere. */
  function FirstToLast(t: string, open: char, close: char): (r: Option<string>)
    ensures r.None? <==> !HasDelimSpan(t, open, close)
    ensures r.Some? ==> exists i, e :: DelimSearchResult(t, open, close, i, e) && r.value == t[i..e]
  {
    var i := FirstIndex(t, open, 0);
    var k := LastIndex(t, close, |t|);
    if i < k then
      assert DelimSearchResult(t, open, close, i, k + 1);
      Some(t[i..k + 1])
    else
      None
  }

  /** The slice is the outermost one: it opens at the first `open` of the
      text and closes at the last `close`. */
  lemma FirstToLastOutermost(t: string, open: char, close: char) returns (i: nat, e: nat)
    requires FirstToLast(t, open, close).Some?
    ensures i < e <= |t| && FirstToLast(t, open, close).value == t[i..e]
    ensures t[i] == open && t[e - 1] == close
    ensures forall x :: 0 <= x < i ==> t[x] != open
    ensures forall x :: e <= x < |t| ==> t[x] != close
  {
    i, e :| DelimSearchResult(t, open, close, i, e) && FirstToLast(t, open, close).value == t[i..e];
    forall x | 0 <= x < i ensures t[x] == open ==> DelimSpan(t, open, close, x, e) { }
    forall x | e <= x < |t| ensures t[x] == close ==> DelimSpan(t, open, close, i, x + 1) { }
  }

  /** A text that is itself one whole match is sliced unchanged. */
  lemma WholeDelimSpan(b: string, open: char, close: char)
    requires DelimSpan(b, open, close, 0, |b|)
    ensures FirstToLast(b, open, close) == Some(b)
  {
    assert HasDelimSpan(b, open, close);
    var r := FirstToLast(b, open, close);
    var i2, e2 :| DelimSearchResult(b, open, close, i2, e2) && r.value == b[i2..e2];
    assert 0 < i2 || (0 == i2 && |b| <= e2);
    assert b[i2..e2] == b;
  }

  /** Cutting the slice out of its own output changes nothing. */
  lemma FirstToLastIdempotent(t: string, open: char, close: char)
    requires FirstToLast(t, open, close).Some?
    ensures FirstToLast(FirstToLast(t, open, close).value, open, close) == FirstToLast(t, open, close)
  {
    var b := FirstToLast(t, open, close).value;
    var i, e :| DelimSearchResult(t, open, close, i, e) && b == t[i..e];
    WholeDelimSpan(b, open, close);
  }

  /** Prose around the match is ignored as long as it holds no `open` before
      it and no `close` after it. */
  lemma DelimInContext(a: string, b: string, c: string, open: char, close: char)
    requires DelimSpan(b, open, close, 0, |b|)
    requires open !in a && close !in c
    ensures FirstToLast(a + b + c, open, close) == Some(b)
  {
    var t := a + b + c;
    assert t[|a|..|a| + |b|] == b;
    assert forall x :: 0 <= x < |a| ==> t[x] == a[x];
    assert forall x :: |a| + |b| <= x < |t| ==> t[x] == c[x - |a| - |b|];
    assert DelimSearchResult(t, open, close, |a|, |a| + |b|);
    var r := FirstToLast(t, open, close);
    var i2, e2 :| DelimSearchResult(t, open, close, i2, e2) && r.value == t[i2..e2];
  }
}

=== FILE: failures.dfy ===
/** The exceptions of the pipeline's stages that the model covers, and which stage each belongs to. */
module Failures {

  datatype Failure =
    // pipeline.py, step 1: the scout child process and its output
    | ScoutProcessFailed(stderr: string)
    | ScoutExtractFailed(raw: string)
    | ScoutInvalidJson(raw: string)
    | NoJobsFound
    // pipeline.py, step 2: checks on the analyst's result
    | RankingFailed
    | RankedNotIndexable
    // agents/scout.py, inside the child process
    | ScoutNoFinalResult
    | ScoutUnescapeFailed
    | ScoutMalformedJson
    | ScoutNotAList
    // agents/analyst.py
    | AnalystResumeMissing
    | AnalystNoJson
    | AnalystBadJson
    // agents/tailor.py
    | TailorResumeMissing
    | JobNotSubscriptable
    | JobFieldMissing(key: string)
    | TailorNoJson
    | TailorBadJson

  datatype Stage = Scouting | Ranking | Tailoring

  /** The stage whose failure an exception reports. */
  function StageOf(f: Failure): Stage {
    match f
    case ScoutProcessFailed(_) | ScoutExtractFailed(_) | ScoutInvalidJson(_) | NoJobsFound
      | ScoutNoFinalResult | ScoutUnescapeFailed | ScoutMalformedJson | ScoutNotAList => Scouting
    case RankingFailed | RankedNotIndexable | AnalystResumeMissing | AnalystNoJson | AnalystBadJson => Ranking
    case TailorResumeMissing | JobNotSubscriptable | JobFieldMissing(_) | TailorNoJson | TailorBadJson => Tailoring
  }

  /** The text each exception carries: the source's own message for the
      exceptions it raises, the Python exception class for library errors. */
  function Message(f: Failure): string {
    match f
    case ScoutProcessFailed(stderr) => "Scout process failed:\n" + stderr
    case ScoutExtractFailed(raw) => "Could not extract JSON from Scout:\n" + raw
    case ScoutInvalidJson(raw) => "Invalid JSON returned from Scout:\n" + raw
    case NoJobsFound => "No jobs found."
    case RankingFailed => "Ranking failed."
    case RankedNotIndexable => "KeyError / TypeError"
    case ScoutNoFinalResult => "Scout did not return final result."
    case ScoutUnescapeFailed => "UnicodeDecodeError"
    case ScoutMalformedJson => "Scout returned malformed JSON."
    case ScoutNotAList => "Scout output is not a list."
    case AnalystResumeMissing => "master_resume.md not found."
    case AnalystNoJson => "Analyst did not return JSON."
    case AnalystBadJson => "Failed to parse analyst JSON."
    case TailorResumeMissing => "master_resume.md not found in data folder."
    case JobNotSubscriptable => "TypeError"
    case JobFieldMissing(key) => "'" + key + "'"
    case TailorNoJson => "No JSON object found in LLM output."
    case TailorBadJson => "Tailor LLM returned malformed JSON."
  }
}

=== FILE: json.dfy ===
/** The decoded JSON values the stages pass between them, and the decoder
    they use. `json.loads` is not modelled: every stage receives it as a
    `Parser`, an arbitrary function from text to a value or a decode failure. */
module JsonModel {
  import opened Wrappers

  /** A value `json.loads` can return. Numbers are integers here; the
      pipeline only ever tests them for truthiness. */
  datatype Json =
    | JNull
    | JBool(b: bool)
    | JNumber(n: int)
    | JString(str: string)
    | JArray(items: seq<Json>)
    | JObject(members: seq<(string, Json)>)

  /** `json.loads`: a value, or None for `json.JSONDecodeError`. */
  type Parser = string -> Option<Json>

  /** Python truthiness of a decoded value, as `if not value` tests it. */
  predicate Truthy(j: Json) {
    match j
    case JNull => false
    case JBool(b) => b
    case JNumber(n) => n != 0
    case JString(s) => s != []
    case JArray(items) => items != []
    case JObject(members) => members != []
  }

  /** `obj[key]` on a decoded object: the value of the last member named
      `key`, since `json.loads` keeps the last of repeated names. */
  function Lookup(members: seq<(string, Json)>, key: string): Option<Json> {
    if members == [] then None
    else if members[|members| - 1].0 == key then Some(members[|members| - 1].1)
    else Lookup(members[..|members| - 1], key)
  }

  /** The lookup fails exactly when no member has the name, and otherwise
      finds a member with that name that no later member shares. */
  lemma {:induction false} LookupLast(members: seq<(string, Json)>, key: string)
    ensures Lookup(members, key).None? <==> forall m :: m in members ==> m.0 != key
    ensures Lookup(members, key).Some? ==>
              exists i :: 0 <= i < |members| && members[i] == (key, Lookup(members, key).value)
                          && forall j :: i < j < |members| ==> members[j].0 != key
  {
    if members != [] {
      var last := members[|members| - 1];
      var init := members[..|members| - 1];
      assert members == init + [last];
      if last.0 != key {
        LookupLast(init, key);
        if Lookup(init, key).Some? {
          var i :| 0 <= i < |init| && init[i] == (key, Lookup(init, key).value)
                   && forall j :: i < j < |init| ==> init[j].0 != key;
          assert members[i] == init[i];
        }
      }
    }
  }
}

=== FILE: pipeline.dfy ===
/** `run_agent`: scout in a child process, rank in process, tailor the best
    match, and fail fast, raising at the first stage that fails. */
module Pipeline {
  import opened Wrappers
  import opened Text
  import opened JsonModel
  import opened Failures
  import opened Extraction
  import Analyst
  import Tailor

  /** How the scout child process ended: exit status 0 with what it printed,
      or a non-zero status with what it printed and its error stream. */
  datatype ProcessOutcome =
    | Exited(stdout: string)
    | Failed(stdout: string, stderr: string)

  /** The child process run with the query as its argument. */
  type ScoutProcess = string -> ProcessOutcome

  /** A call into an in-process stage, with what it was given. */
  datatype StageCall =
    | RankCall(jobs: Json, query: string)
    | TailorCall(job: Json, query: string)

  /** The dictionary `run_agent` returns. */
  datatype PipelineResult = PipelineResult(bestMatch: Json, tailoredPackage: Json, alternatives: Json)

  /** The outcome of one run, with the stage calls it made in order. */
  datatype Run = Run(outcome: Result<PipelineResult, Failure>, calls: seq<StageCall>)

  /** The scout script's entry point. Everything printed while the agent ran
      (`logs`: the agent library's logging and the scout's own diagnostics)
      comes first. On success it then prints the listings as JSON (`dumps` is
      `json.dumps`) and exits normally; on any exception it prints the
      message, to standard output and not to the error stream, and exits with
      status 1. `print` ends each of these lines with a newline. */
  function ScoutEntryPoint(result: Result<Json, Failure>, logs: string, dumps: Json -> string, stderr: string): ProcessOutcome {
    match result
    case Ok(jobs) => Exited(logs + dumps(jobs) + "\n")
    case Err(e) => Failed(logs + Message(e) + "\n", stderr)
  }

  /** Step 1 of `run_agent`: the child's output, trimmed, is searched for an
      array of objects, which is decoded and must be truthy. */
  function CollectJobs(outcome: ProcessOutcome, parse: Parser): (r: Result<Json, Failure>)
    ensures outcome.Failed? ==> r == Err(ScoutProcessFailed(outcome.stderr))
    ensures r.Err? && r.error.ScoutProcessFailed? ==> outcome.Failed?
    ensures outcome.Exited? ==>
              (r == Err(ScoutExtractFailed(Strip(outcome.stdout))) <==> !HasArraySpan(Strip(outcome.stdout)))
    ensures r.Ok? || r == Err(NoJobsFound) || (r.Err? && r.error.ScoutInvalidJson?) ==>
              && outcome.Exited? && HasArraySpan(Strip(outcome.stdout))
              && var block := ExtractJsonArray(Strip(outcome.stdout)).value;
                 && ((r.Err? && r.error.ScoutInvalidJson?) <==> parse(block).None?)
                 && (r == Err(NoJobsFound) <==> parse(block).Some? && !Truthy(parse(block).value))
                 && (r.Ok? ==> parse(block) == Some(r.value) && Truthy(r.value))
    ensures r.Err? ==> r.error.ScoutProcessFailed? || r.error.ScoutExtractFailed?
                       || r.error.ScoutInvalidJson? || r.error == NoJobsFound
    ensures r.Err? && (r.error.ScoutExtractFailed? || r.error.ScoutInvalidJson?) ==>
              outcome.Exited? && r.error.raw == Strip(outcome.stdout)
    ensures outcome.Exited? && HasArraySpan(Strip(outcome.stdout)) ==>
              var decoded := parse(ExtractJsonArray(Strip(outcome.stdout)).value);
              decoded.Some? && Truthy(decoded.value) ==> r == Ok(decoded.value)
  {
    match outcome
    case Failed(_, stderr) => Err(ScoutProcessFailed(stderr))
    case Exited(stdout) =>
      var raw := Strip(stdout);
      match ExtractJsonArray(raw)
      case None => Err(ScoutExtractFailed(raw))
      case Some(block) =>
        match parse(block)
        case None => Err(ScoutInvalidJson(raw))
        case Some(jobs) => if Truthy(jobs) then Ok(jobs) else Err(NoJobsFound)
  }

  /** What a failed child reported is lost: the error raised carries the
      child's error stream only, whatever the scout's own exception said. */
  lemma ScoutMessageLost(e: Failure, logs: string, dumps: Json -> string, stderr: string, parse: Parser)
    ensures CollectJobs(ScoutEntryPoint(Err(e), logs, dumps, stderr), parse) == Err(ScoutProcessFailed(stderr))
  {
  }

  /** An empty listing never reaches the "No jobs found." branch: the child
      prints `[]`, which holds no `[`, whitespace, `{` opening, so step 1
      reports that no array could be extracted from the printed text. */
  lemma EmptyListingNotExtracted(logs: string, dumps: Json -> string, stderr: string, parse: Parser)
    requires dumps(JArray([])) == "[]"
    requires forall x :: 0 <= x < |logs| ==> !OpensAt(logs, x)
    ensures CollectJobs(ScoutEntryPoint(Ok(JArray([])), logs, dumps, stderr), parse)
            == Err(ScoutExtractFailed(Strip(logs + "[]\n")))
  {
    var a := StripAround(logs, "[]");
    forall x | 0 <= x < |logs| - a ensures !OpensAt(logs[a..], x) {
      if OpensAt(logs[a..], x) {
        OpensInSuffix(logs, a, x);
      }
    }
    EmptyArrayUnmatched(logs[a..]);
    assert logs + "[]\n" == logs + "[]" + "\n";
  }

  /** The listings the child prints reach the orchestrator unchanged: when
      `json.dumps` writes them as one `[`…`{`…`}`…`]` block that `json.loads`
      reads back, and nothing printed before holds an opening of that pattern
      (`[`, whitespace, `{`), step 1 cuts out exactly that block and decodes
      it to the same listings. Bracketed log text such as `[agent]` is passed. */
  lemma ListingsReachTheOrchestrator(jobs: Json, logs: string, dumps: Json -> string, stderr: string, parse: Parser)
    requires ArraySpan(dumps(jobs), 0, |dumps(jobs)|)
    requires parse(dumps(jobs)) == Some(jobs) && Truthy(jobs)
    requires forall x :: 0 <= x < |logs| ==> !OpensAt(logs, x)
    ensures CollectJobs(ScoutEntryPoint(Ok(jobs), logs, dumps, stderr), parse) == Ok(jobs)
  {
    var d := dumps(jobs);
    var a := StripAround(logs, d);
    forall x | 0 <= x < |logs| - a ensures !OpensAt(logs[a..], x) {
      if OpensAt(logs[a..], x) {
        OpensInSuffix(logs, a, x);
      }
    }
    ArrayInContext(logs[a..], d);
  }

  /** The best match and the alternatives taken from the ranked value. */
  datatype Picked = Picked(best: Json, alternatives: Json)

  /** `ranked_jobs[0]` and `ranked_jobs[1:3]` after the truthiness check. A
      list gives its first item and the next up to two; a string gives its
      first character and the next up to two; any other truthy value cannot
      be indexed by 0 and raises. */
  function Pick(ranked: Json): (r: Result<Picked, Failure>)
    ensures !Truthy(ranked) <==> r == Err(RankingFailed)
    ensures r == Err(RankedNotIndexable) <==> Truthy(ranked) && !ranked.JArray? && !ranked.JString?
    ensures r.Err? ==> r.error == RankingFailed || r.error == RankedNotIndexable
    ensures r.Ok? && ranked.JArray? ==>
              && r.value.alternatives.JArray?
              && [r.value.best] + r.value.alternatives.items == ranked.items[..Min(3, |ranked.items|)]
    ensures r.Ok? && ranked.JString? ==>
              && r.value.best.JString? && r.value.alternatives.JString?
              && |r.value.best.str| == 1
              && r.value.best.str + r.value.alternatives.str == ranked.str[..Min(3, |ranked.str|)]
  {
    if !Truthy(ranked) then Err(RankingFailed)
    else match ranked
      case JArray(items) => Ok(Picked(items[0], JArray(items[1..Min(3, |items|)])))
      case JString(s) => Ok(Picked(JString(s[..1]), JString(s[1..Min(3, |s|)])))
      case _ => Err(RankedNotIndexable)
  }

  function Min(a: int, b: int): int { if a <= b then a else b }

  /** A ranked list gives at most two alternatives, the items that follow the
      best match in the model's order; nothing is re-sorted or de-duplicated. */
  lemma PickList(items: seq<Json>)
    requires items != []
    ensures Pick(JArray(items)).Ok?
    ensures Pick(JArray(items)).value.best == items[0]
    ensures var alts := Pick(JArray(items)).value.alternatives.items;
            && |alts| == Min(2, |items| - 1)
            && forall n :: 0 <= n < |alts| ==> alts[n] == items[n + 1]
  {
    var p := Pick(JArray(items)).value;
    assert ([p.best] + p.alternatives.items)[0] == p.best;
    var alts := p.alternatives.items;
    forall n | 0 <= n < |alts| ensures alts[n] == items[n + 1] {
      assert ([p.best] + alts)[n + 1] == alts[n];
    }
  }

  /** A failure raised while ranking or picking from the ranking. */
  predicate RankingFailure(f: Failure) {
    f.AnalystResumeMissing? || f.AnalystNoJson? || f.AnalystBadJson? || f.RankingFailed? || f.RankedNotIndexable?
  }

  /** A failure raised by the tailoring stage. */
  predicate TailoringFailure(f: Failure) {
    f.TailorResumeMissing? || f.JobNotSubscriptable? || f.JobFieldMissing? || f.TailorNoJson? || f.TailorBadJson?
  }

  /** Step 3 of `run_agent`: tailor the best match, after the ranking call. */
  function TailorStep(p: Picked, ranking: seq<StageCall>, query: string, parse: Parser, resume: Option<string>,
                      tailorModel: Tailor.TailorModel): (r: Run)
    ensures r.calls == ranking + [TailorCall(p.best, query)]
    ensures r.outcome.Err? ==> TailoringFailure(r.outcome.error)
    ensures r.outcome.Err? <==> Tailor.TailorApplication(p.best, query, resume, tailorModel, parse).Err?
    ensures r.outcome.Err? ==> r.outcome.error == Tailor.TailorApplication(p.best, query, resume, tailorModel, parse).error
    ensures r.outcome.Ok? ==>
              && r.outcome.value.bestMatch == p.best && r.outcome.value.alternatives == p.alternatives
              && Tailor.TailorApplication(p.best, query, resume, tailorModel, parse) == Ok(r.outcome.value.tailoredPackage)
  {
    var calls := ranking + [TailorCall(p.best, query)];
    match Tailor.TailorApplication(p.best, query, resume, tailorModel, parse)
    case Err(e) => Run(Err(e), calls)
    case Ok(package) => Run(Ok(PipelineResult(p.best, package, p.alternatives)), calls)
  }

  /** Steps 2 and 3 of `run_agent`, given the scouted listings. */
  function RankAndTailor(jobs: Json, query: string, parse: Parser, resume: Option<string>,
                         rankModel: Analyst.RankModel, tailorModel: Tailor.TailorModel): (r: Run)
    ensures 1 <= |r.calls| <= 2 && r.calls[0] == RankCall(jobs, query)
    ensures |r.calls| == 1 <==> r.outcome.Err? && RankingFailure(r.outcome.error)
    ensures |r.calls| == 2 ==>
              var ranked := Analyst.RankJobs(jobs, query, resume, rankModel, parse);
              && ranked.Ok? && Pick(ranked.value).Ok?
              && r == TailorStep(Pick(ranked.value).value, [RankCall(jobs, query)], query, parse, resume, tailorModel)
    ensures var ranked := Analyst.RankJobs(jobs, query, resume, rankModel, parse);
            ranked.Err? ==> r.outcome == Err(ranked.error)
    ensures var ranked := Analyst.RankJobs(jobs, query, resume, rankModel, parse);
            ranked.Ok? && Pick(ranked.value).Err? ==> r.outcome == Err(Pick(ranked.value).error)
    ensures var ranked := Analyst.RankJobs(jobs, query, resume, rankModel, parse);
            ranked.Ok? && Pick(ranked.value).Ok? ==> |r.calls| == 2
  {
    var ranking := [RankCall(jobs, query)];
    match Analyst.RankJobs(jobs, query, resume, rankModel, parse)
    case Err(e) => Run(Err(e), ranking)
    case Ok(ranked) =>
      match Pick(ranked)
      case Err(e) => Run(Err(e), ranking)
      case Ok(p) => TailorStep(p, ranking, query, parse, resume, tailorModel)
  }

  /** How many of the in-process stages (ranking, tailoring) have been invoked
      when a stage fails: the failing stage is always the last one invoked. */
  function CallsWhenFailing(s: Stage): nat {
    match s
    case Scouting => 0
    case Ranking => 1
    case Tailoring => 2
  }

  /** `run_agent`. The résumé is read by both in-process stages; both see
      the same `resume`. The run stops at the first failing stage: nothing is
      called when scouting fails, a failed run has invoked exactly the stages
      up to and including the one that failed, and a successful run has
      called ranking on the scouted listings and then tailoring. */
  function RunAgent(query: string, scout: ScoutProcess, parse: Parser, resume: Option<string>,
                    rankModel: Analyst.RankModel, tailorModel: Tailor.TailorModel): (r: Run)
    ensures |r.calls| <= 2
    ensures r.calls == [] <==> CollectJobs(scout(query), parse).Err?
    ensures r.calls == [] ==> r.outcome == Err(CollectJobs(scout(query), parse).error)
    ensures r.calls != [] ==>
              r == RankAndTailor(CollectJobs(scout(query), parse).value, query, parse, resume, rankModel, tailorModel)
    ensures r.outcome.Err? ==> |r.calls| == CallsWhenFailing(StageOf(r.outcome.error))
    ensures r.outcome.Ok? ==> |r.calls| == 2 && r.calls[0].RankCall? && r.calls[1].TailorCall?
  {
    match CollectJobs(scout(query), parse)
    case Err(e) =>
      ScoutingStage(e);
      Run(Err(e), [])
    case Ok(jobs) =>
      RankAndTailorFailsFast(jobs, query, parse, resume, rankModel, tailorModel);
      RankAndTailor(jobs, query, parse, resume, rankModel, tailorModel)
  }

  /** Steps 2 and 3 stop at the first failing one. */
  lemma RankAndTailorFailsFast(jobs: Json, query: string, parse: Parser, resume: Option<string>,
                               rankModel: Analyst.RankModel, tailorModel: Tailor.TailorModel)
    ensures var r := RankAndTailor(jobs, query, parse, resume, rankModel, tailorModel);
            && (r.outcome.Err? ==> |r.calls| == CallsWhenFailing(StageOf(r.outcome.error)))
            && (r.outcome.Ok? ==> |r.calls| == 2 && r.calls[1].TailorCall?)
  {
    var r := RankAndTailor(jobs, query, parse, resume, rankModel, tailorModel);
    if r.outcome.Err? {
      if |r.calls| == 1 {
        RankingStage(r.outcome.error);
      } else {
        TailoringStage(r.outcome.error);
      }
    }
  }

  /** The failures raised in step 1 belong to scouting. */
  lemma ScoutingStage(f: Failure)
    requires f.ScoutProcessFailed? || f.ScoutExtractFailed? || f.ScoutInvalidJson? || f == NoJobsFound
    ensures CallsWhenFailing(StageOf(f)) == 0
  {
  }

  /** The failures raised by ranking or picking belong to ranking. */
  lemma RankingStage(f: Failure)
    requires RankingFailure(f)
    ensures CallsWhenFailing(StageOf(f)) == 1
  {
  }

  /** The failures raised by tailoring belong to tailoring. */
  lemma TailoringStage(f: Failure)
    requires TailoringFailure(f)
    ensures CallsWhenFailing(StageOf(f)) == 2
  {
  }

  /** A truthy string ranking picks its first character as the best match,
      which the tailoring stage then fails on, so a run never succeeds with it. */
  lemma StringRankingFails(s: string, query: string, parse: Parser, resume: Option<string>,
                           tailorModel: Tailor.TailorModel)
    requires s != []
    ensures Pick(JString(s)).Ok?
    ensures TailorStep(Pick(JString(s)).value, [], query, parse, resume, tailorModel).outcome.Err?
  {
    assert !Pick(JString(s)).value.best.JObject?;
  }

  /** What a successful run returns, given the scouted listings (by
      `RunAgent`'s contract a run whose scouting succeeds is this one): the
      ranking is a non-empty list, and the run is the tailoring step on its
      first item, with the next up to two items as the alternatives. */
  lemma RankAndTailorSuccess(jobs: Json, query: string, parse: Parser, resume: Option<string>,
                             rankModel: Analyst.RankModel, tailorModel: Tailor.TailorModel)
    returns (items: seq<Json>)
    ensures RankAndTailor(jobs, query, parse, resume, rankModel, tailorModel).outcome.Ok? ==>
              && Analyst.RankJobs(jobs, query, resume, rankModel, parse) == Ok(JArray(items)) && items != []
              && RankAndTailor(jobs, query, parse, resume, rankModel, tailorModel)
                   == TailorStep(Picked(items[0], JArray(items[1..Min(3, |items|)])), [RankCall(jobs, query)],
                                 query, parse, resume, tailorModel)
  {
    items := [];
    if RankAndTailor(jobs, query, parse, resume, rankModel, tailorModel).outcome.Ok? {
      var ranked := Analyst.RankJobs(jobs, query, resume, rankModel, parse).value;
      var p := Pick(ranked).value;
      TailoredIsObject(p, [RankCall(jobs, query)], query, parse, resume, tailorModel);
      items := ranked.items;
    }
  }

  /** A ranking that is a non-empty list goes on to tailoring with its first
      item as the best match and the next up to two items as the
      alternatives, after the one ranking call. */
  lemma RankedListTailored(jobs: Json, query: string, parse: Parser, resume: Option<string>,
                           rankModel: Analyst.RankModel, tailorModel: Tailor.TailorModel, items: seq<Json>)
    ensures Analyst.RankJobs(jobs, query, resume, rankModel, parse) == Ok(JArray(items)) && items != [] ==>
              RankAndTailor(jobs, query, parse, resume, rankModel, tailorModel)
                == TailorStep(Picked(items[0], JArray(items[1..Min(3, |items|)])), [RankCall(jobs, query)],
                              query, parse, resume, tailorModel)
  {
    if Analyst.RankJobs(jobs, query, resume, rankModel, parse) == Ok(JArray(items)) && items != [] {
      assert Pick(JArray(items)) == Ok(Picked(items[0], JArray(items[1..Min(3, |items|)])));
    }
  }

  /** Tailoring that succeeds completes the run: the best match, the package
      tailored for it and the alternatives, after the ranking call and the
      tailoring call. */
  lemma TailorStepSucceeds(p: Picked, ranking: seq<StageCall>, query: string, parse: Parser, resume: Option<string>,
                           tailorModel: Tailor.TailorModel)
    ensures var package := Tailor.TailorApplication(p.best, query, resume, tailorModel, parse);
            package.Ok? ==>
              TailorStep(p, ranking, query, parse, resume, tailorModel)
                == Run(Ok(PipelineResult(p.best, package.value, p.alternatives)), ranking + [TailorCall(p.best, query)])
  {
  }

  /** Tailoring succeeds only on an object. */
  lemma TailoredIsObject(p: Picked, ranking: seq<StageCall>, query: string, parse: Parser, resume: Option<string>,
                         tailorModel: Tailor.TailorModel)
    ensures TailorStep(p, ranking, query, parse, resume, tailorModel).outcome.Ok? ==> p.best.JObject?
  {
  }

  /** An empty or otherwise falsy ranking stops the run before tailoring. */
  lemma FalsyRankingStops(query: string, scout: ScoutProcess, parse: Parser, resume: Option<string>,
                          rankModel: Analyst.RankModel, tailorModel: Tailor.TailorModel)
    ensures CollectJobs(scout(query), parse).Ok? ==>
              var jobs := CollectJobs(scout(query), parse).value;
              var ranked := Analyst.RankJobs(jobs, query, resume, rankModel, parse);
              ranked.Ok? && !Truthy(ranked.value) ==>
                RunAgent(query, scout, parse, resume, rankModel, tailorModel) == Run(Err(RankingFailed), [RankCall(jobs, query)])
  {
  }

  /** The alternatives are not checked against the best match: a ranking
      that repeats an item gives that item again as an alternative. */
  lemma RepeatedItemKept(j: Json)
    ensures Pick(JArray([j, j])) == Ok(Picked(j, JArray([j])))
  {
    assert [j, j][1..2] == [j];
  }
}

=== FILE: scout.dfy ===
/** The scouting stage as it runs inside its child process (`scout_jobs`):
    the query is normalised to a search keyword, the browser agent is asked
    for listings, and its final text is cleaned and decoded into a list. */
module Scout {
  import opened Wrappers
  import opened Text
  import opened JsonModel
  import opened Failures

  /** `max_jobs`, the number of listings the browser agent is asked for. */
  const MaxJobs: nat := 3

  /** The phrases looked for in the lower-cased query, in the order tried,
      and the keyword each one selects. */
  const Phrases: seq<string> := ["machine learning", "data science", "backend", "ai"]
  const Keywords: seq<string> := ["Machine Learning", "Data Science", "Backend", "Artificial Intelligence"]

  /** The browser agent: given the keyword and the number of listings wanted,
      its final result, which may be missing. */
  type Fetcher = (string, nat) -> Option<string>

  /** `.encode("utf-8").decode("unicode_escape")`, or None when it raises. */
  type Unescaper = string -> Option<string>

  /** Phrase number `n` is the first of the phrases to occur in `lowered`. */
  ghost predicate FirstPhrase(lowered: string, n: int) {
    && 0 <= n < |Phrases| && Contains(lowered, Phrases[n])
    && forall m :: 0 <= m < n ==> !Contains(lowered, Phrases[m])
  }

  ghost predicate NoPhrase(lowered: string) {
    forall n :: 0 <= n < |Phrases| ==> !Contains(lowered, Phrases[n])
  }

  /** The search keyword of `scout_jobs`: the keyword of the first phrase that
      occurs in the lower-cased query, or the query with surrounding
      whitespace removed when none does. */
  function SearchKeyword(query: string): (k: string)
    ensures forall n :: FirstPhrase(Lower(query), n) ==> k == Keywords[n]
    ensures NoPhrase(Lower(query)) ==> k == Strip(query)
  {
    var q := Lower(query);
    if Contains(q, Phrases[0]) then Keywords[0]
    else if Contains(q, Phrases[1]) then Keywords[1]
    else if Contains(q, Phrases[2]) then Keywords[2]
    else if Contains(q, Phrases[3]) then Keywords[3]
    else Strip(query)
  }

  /** Only the first matching phrase counts: a query naming both machine
      learning and data science searches for machine learning. */
  lemma MachineLearningWins(query: string)
    requires Contains(Lower(query), "machine learning") && Contains(Lower(query), "data science")
    ensures SearchKeyword(query) == "Machine Learning"
  {
    assert FirstPhrase(Lower(query), 0);
  }

  /** "ai" is matched as a bare substring, so a query where it only appears
      inside another word ("Email") still searches for Artificial Intelligence. */
  lemma AiInsideAWord(query: string)
    requires query == "Email Intern"
    ensures SearchKeyword(query) == Keywords[3]
  {
    assert forall i :: 0 <= i < |query| ==> query[i] != '\U{130}';
    LowerPointwise(query);
    EmailInternLowered(query, Lower(query));
  }

  lemma EmailInternLowered(query: string, l: string)
    requires query == "Email Intern" && LowersTo(query, l)
    ensures FirstPhrase(l, 3)
  {
    TooShort(l, Phrases[0]);
    assert forall i :: 0 <= i < |l| ==> l[i] != 'd' && l[i] != 'b';
    AbsentHead(l, Phrases[1]);
    AbsentHead(l, Phrases[2]);
    assert OccursAt(l, Phrases[3], 2);
    ContainsAt(l, Phrases[3]);
  }

  /** `l` is `k` lowered character by character. */
  ghost predicate LowersTo(k: string, l: string) {
    |l| == |k| && forall i :: 0 <= i < |k| ==> l[i] == LowerOne(k[i])
  }

  /** The keywords hold no U+0130, so they lower character by character. */
  lemma KeywordLowering(n: nat)
    requires n < |Keywords|
    ensures LowersTo(Keywords[n], Lower(Keywords[n]))
  {
    var k := Keywords[n];
    assert forall i :: 0 <= i < |k| ==> k[i] != '\U{130}';
    LowerPointwise(k);
  }

  /** Each keyword's own phrase occurs in it, and no earlier phrase does. */
  lemma MachineLearningLowered(l: string)
    requires LowersTo(Keywords[0], l)
    ensures FirstPhrase(l, 0)
  {
    assert StartsWith(l, Phrases[0]);
  }

  lemma DataScienceLowered(l: string)
    requires LowersTo(Keywords[1], l)
    ensures FirstPhrase(l, 1)
  {
    assert StartsWith(l, Phrases[1]);
    TooShort(l, Phrases[0]);
  }

  lemma BackendLowered(l: string)
    requires LowersTo(Keywords[2], l)
    ensures FirstPhrase(l, 2)
  {
    assert StartsWith(l, Phrases[2]);
    TooShort(l, Phrases[0]);
    TooShort(l, Phrases[1]);
  }

  /** "Artificial Intelligence" has no 'm', 'd' or 'b', so it contains none
      of the first three phrases. */
  lemma ArtificialIntelligenceNoLetters(l: string)
    requires LowersTo(Keywords[3], l)
    ensures forall i :: 0 <= i < |l| ==> l[i] != 'm' && l[i] != 'd' && l[i] != 'b'
  {
  }

  /** None of the 'a's of "Artificial Intelligence" is followed by an 'i'. */
  lemma ArtificialIntelligenceNoPair(l: string)
    requires LowersTo(Keywords[3], l)
    ensures forall i :: 0 <= i < |l| - 1 ==> !(l[i] == 'a' && l[i + 1] == 'i')
  {
  }

  /** "Artificial Intelligence" contains none of the phrases. */
  lemma ArtificialIntelligenceLowered(l: string)
    requires LowersTo(Keywords[3], l)
    ensures NoPhrase(l)
  {
    ArtificialIntelligenceNoLetters(l);
    AbsentHead(l, Phrases[0]);
    AbsentHead(l, Phrases[1]);
    AbsentHead(l, Phrases[2]);
    ArtificialIntelligenceNoPair(l);
    PairOccurrence(l, Phrases[3]);
  }

  /** Every keyword is its own search keyword. */
  lemma MachineLearningFixed()
    ensures SearchKeyword(Keywords[0]) == Keywords[0]
  {
    KeywordLowering(0);
    MachineLearningLowered(Lower(Keywords[0]));
  }
  lemma DataScienceFixed()
    ensures SearchKeyword(Keywords[1]) == Keywords[1]
  {
    KeywordLowering(1);
    DataScienceLowered(Lower(Keywords[1]));
  }
  lemma BackendFixed()
    ensures SearchKeyword(Keywords[2]) == Keywords[2]
  {
    KeywordLowering(2);
    BackendLowered(Lower(Keywords[2]));
  }
  lemma ArtificialIntelligencePassesThrough()
    ensures SearchKeyword(Keywords[3]) == Strip(Keywords[3])
  {
    KeywordLowering(3);
    ArtificialIntelligenceLowered(Lower(Keywords[3]));
  }

  lemma ArtificialIntelligenceTrimmed()
    ensures Strip(Keywords[3]) == Keywords[3]
  {
    KeywordTrimmed(Keywords[3]);
  }

  lemma KeywordFixed(n: nat)
    requires n < |Keywords|
    ensures SearchKeyword(Keywords[n]) == Keywords[n]
  {
    if n == 0 { MachineLearningFixed(); }
    else if n == 1 { DataScienceFixed(); }
    else if n == 2 { BackendFixed(); }
    else { ArtificialIntelligencePassesThrough(); ArtificialIntelligenceTrimmed(); }
  }

  /** A string with no whitespace at either end is its own strip. */
  lemma KeywordTrimmed(k: string)
    requires k != [] && !IsSpace(k[0]) && !IsSpace(k[|k| - 1])
    ensures Strip(k) == k
  {
    assert TrimmedAt(k, k, IsSpace, 0);
    TrimByUnique(k, k, IsSpace, 0);
  }

  /** A query that mentions no phrase is only trimmed, and trimming cannot
      make a phrase appear. */
  lemma PassThroughStable(query: string)
    requires NoPhrase(Lower(query))
    ensures NoPhrase(Lower(Strip(query)))
    ensures Strip(Strip(query)) == Strip(query)
  {
    var k := Strip(query);
    var a :| TrimmedAt(query, k, IsSpace, a);
    var p, s := query[..a], query[a + |k|..];
    assert query == p + k + s;
    NoPhraseInPart(p, k, s);
    TrimByIdempotent(query, IsSpace);
  }

  /** A phrase in part of a text is a phrase in the whole of it. */
  lemma NoPhraseInPart(p: string, k: string, s: string)
    requires NoPhrase(Lower(p + k + s))
    ensures NoPhrase(Lower(k))
  {
    LowerConcat3(p, k, s);
    forall n | 0 <= n < |Phrases| ensures !Contains(Lower(k), Phrases[n]) {
      if Contains(Lower(k), Phrases[n]) {
        ContainsInContext(Lower(p), Lower(k), Lower(s), Phrases[n]);
      }
    }
  }

  /** Normalising a keyword again gives the same keyword, so near-duplicate
      queries reach the browser agent as one and the same search. */
  lemma {:induction false} SearchKeywordIdempotent(query: string)
    ensures SearchKeyword(SearchKeyword(query)) == SearchKeyword(query)
  {
    var q := Lower(query);
    if NoPhrase(q) {
      PassThroughStable(query);
    } else {
      var n :| 0 <= n < |Phrases| && Contains(q, Phrases[n]);
      var f := FirstPhraseExists(q, n);
      KeywordFixed(f);
    }
  }

  /** Some phrase occurs, so a first one does. */
  lemma FirstPhraseExists(lowered: string, n: nat) returns (f: nat)
    requires n < |Phrases| && Contains(lowered, Phrases[n])
    ensures f <= n && FirstPhrase(lowered, f)
  {
    f := 0;
    while !Contains(lowered, Phrases[f])
      invariant f <= n
      invariant forall m :: 0 <= m < f ==> !Contains(lowered, Phrases[m])
      decreases n - f
    {
      f := f + 1;
    }
  }

  /** The fence step: the agent's text with surrounding whitespace removed
      and, when it then opens with a fence, every "```json" and then every
      "```" deleted and the rest trimmed again. */
  function StripFences(raw: string): (r: string)
    ensures !StartsWith(Strip(raw), "```") ==> r == Strip(raw)
    ensures StartsWith(Strip(raw), "```") ==> !Contains(r, "```")
    ensures Strip(r) == r
  {
    var t := Strip(raw);
    TrimByIdempotent(raw, IsSpace);
    if StartsWith(t, "```") then
      var u := RemoveAll(RemoveAll(t, "```json"), "```");
      FenceRemovalClean(RemoveAll(t, "```json"));
      TrimByIdempotent(u, IsSpace);
      Strip(u)
    else t
  }

  /** A listing fenced as "```json" … "```" comes out as its payload,
      trimmed, when the payload holds no "```" of its own (single backticks,
      such as an inline code span, are kept). */
  lemma FencedListing(p: string)
    requires !Contains(p, "```")
    ensures StripFences("```json" + p + "```") == Strip(p)
  {
    var f := "```json" + p + "```";
    FencedTagged(p, f);
    FenceTagDeleted(p, f);
  }

  /** A fenced, tagged payload has no whitespace to strip and opens with the
      fence and its tag. */
  lemma FencedTagged(p: string, f: string)
    requires f == "```json" + p + "```"
    ensures Strip(f) == f && StartsWith(f, "```")
    ensures f[..7] == "```json" && f[7..] == p + "```"
  {
    assert f[0] == '`' && f[|f| - 1] == '`' && f[..3] == "```";
    assert TrimmedAt(f, f, IsSpace, 0);
    TrimByUnique(f, f, IsSpace, 0);
  }

  /** Deleting the tag and then the fences from the fenced payload leaves the payload. */
  lemma FenceTagDeleted(p: string, f: string)
    requires !Contains(p, "```")
    requires f == "```json" + p + "```" && f[..7] == "```json" && f[7..] == p + "```"
    ensures RemoveAll(RemoveAll(f, "```json"), "```") == p
  {
    NoTagInPayload(p);
    RemoveAllUnchanged(p + "```", "```json");
    assert RemoveAll(f, "```json") == p + "```";
    RemoveTrailingFence(p);
  }

  /** A payload free of "```" and its closing fence hold no "```json": the
      tag would need a "```" of the payload's own. */
  lemma NoTagInPayload(p: string)
    requires !Contains(p, "```")
    ensures !Contains(p + "```", "```json")
  {
    var s := p + "```";
    forall i | OccursAt(s, "```json", i) ensures OccursAt(p, "```", i) {
      assert s[i..i + 3] == p[i..i + 3];
      assert s[i..i + 7][..3] == s[i..i + 3];
    }
    ContainsAt(p, "```");
    ContainsAt(s, "```json");
  }

  /** Once every "```" is deleted, trimming cannot bring one back. */
  lemma FenceRemovalClean(s: string)
    ensures !Contains(Strip(RemoveAll(s, "```")), "```")
  {
    var u := RemoveAll(s, "```");
    RemoveFenceLeavesNone(s);
    var a :| TrimmedAt(u, Strip(u), IsSpace, a);
    ContainsSlice(u, a, a + |Strip(u)|, "```");
  }

  /** The escaped-JSON step: text holding a backslash-quote is passed through
      the unicode-escape decoder, other text is left alone. */
  function Unescaped(t: string, unescape: Unescaper): (r: Option<string>)
    ensures r != Some(t) ==> exists i :: 0 <= i < |t| - 1 && t[i] == '\\' && t[i + 1] == '"'
    ensures (exists i :: 0 <= i < |t| - 1 && t[i] == '\\' && t[i + 1] == '"') ==> r == unescape(t)
  {
    PairOccurrence(t, "\\\"");
    if Contains(t, "\\\"") then unescape(t) else Some(t)
  }

  /** The decode step: parse the text; a decoded string is parsed once more
      (double encoding); the final value must be a list. */
  function DecodeJobs(text: string, parse: Parser): (r: Result<Json, Failure>)
    ensures r.Ok? ==> r.value.JArray?
    ensures r.Ok? ==> || parse(text) == Some(r.value)
                      || (parse(text).Some? && parse(text).value.JString?
                          && parse(parse(text).value.str) == Some(r.value))
    ensures r == Err(ScoutMalformedJson) <==>
              || parse(text).None?
              || (parse(text).value.JString? && parse(parse(text).value.str).None?)
    ensures r.Err? ==> r.error == ScoutMalformedJson || r.error == ScoutNotAList
    ensures parse(text).Some? && parse(text).value.JArray? ==> r == Ok(parse(text).value)
    ensures parse(text).Some? && parse(text).value.JString? ==>
              var second := parse(parse(text).value.str);
              second.Some? && second.value.JArray? ==> r == Ok(second.value)
  {
    match parse(text)
    case None => Err(ScoutMalformedJson)
    case Some(v) =>
      if v.JString? then
        match parse(v.str)
        case None => Err(ScoutMalformedJson)
        case Some(w) => if w.JArray? then Ok(w) else Err(ScoutNotAList)
      else if v.JArray? then Ok(v) else Err(ScoutNotAList)
  }

  /** A list the decoder reads back, printed once or printed and then
      printed again as a JSON string, decodes to itself. */
  lemma EncodedListingDecodes(xs: seq<Json>, dumps: Json -> string, parse: Parser)
    requires parse(dumps(JArray(xs))) == Some(JArray(xs))
    requires parse(dumps(JString(dumps(JArray(xs))))) == Some(JString(dumps(JArray(xs))))
    ensures DecodeJobs(dumps(JArray(xs)), parse) == Ok(JArray(xs))
    ensures DecodeJobs(dumps(JString(dumps(JArray(xs)))), parse) == Ok(JArray(xs))
  {
  }

  /** Decoding stops after the second parse: a string inside a string is a
      non-list, not a third decode. */
  lemma TripleEncodedIsNotAList(text: string, parse: Parser, s1: string, s2: string)
    requires parse(text) == Some(JString(s1)) && parse(s1) == Some(JString(s2))
    ensures DecodeJobs(text, parse) == Err(ScoutNotAList)
  {
  }

  /** `scout_jobs`: ask the agent for listings under the normalised keyword,
      reject a missing or empty final result before any decoding, then clean
      and decode the text into a list. */
  function ScoutJobs(query: string, fetch: Fetcher, unescape: Unescaper, parse: Parser): (r: Result<Json, Failure>)
    ensures var reply := fetch(SearchKeyword(query), MaxJobs);
            r == Err(ScoutNoFinalResult) <==> reply.None? || reply.value == []
    ensures r.Ok? ==> r.value.JArray?
    ensures var reply := fetch(SearchKeyword(query), MaxJobs);
            r == Err(ScoutUnescapeFailed) ==>
              reply.Some? && Contains(StripFences(reply.value), "\\\"")
    ensures r.Ok? ==> exists text :: Unescaped(StripFences(fetch(SearchKeyword(query), MaxJobs).value), unescape) == Some(text)
                                      && DecodeJobs(text, parse) == r
    ensures r.Err? ==> r.error.ScoutNoFinalResult? || r.error.ScoutUnescapeFailed? || r.error.ScoutMalformedJson?
                       || r.error.ScoutNotAList?
    ensures var reply := fetch(SearchKeyword(query), MaxJobs);
            reply.Some? && reply.value != [] ==>
              var text := Unescaped(StripFences(reply.value), unescape);
              && (text.None? ==> r == Err(ScoutUnescapeFailed))
              && (text.Some? ==> r == DecodeJobs(text.value, parse))
  {
    var reply := fetch(SearchKeyword(query), MaxJobs);
    if reply.None? || reply.value == [] then Err(ScoutNoFinalResult)
    else
      match Unescaped(StripFences(reply.value), unescape)
      case None => Err(ScoutUnescapeFailed)
      case Some(text) => DecodeJobs(text, parse)
  }

  /** A listing the agent fences as "```json" … "```", with no "```" and no
      backslash inside, is decoded from its trimmed payload, unescaped. */
  lemma FencedReplyDecodes(query: string, fetch: Fetcher, unescape: Unescaper, parse: Parser, p: string)
    requires fetch(SearchKeyword(query), MaxJobs) == Some("```json" + p + "```")
    requires !Contains(p, "```") && '\\' !in p
    ensures ScoutJobs(query, fetch, unescape, parse) == DecodeJobs(Strip(p), parse)
  {
    FencedListing(p);
    TrimmedHasNoEscape(p);
    assert "```json" + p + "```" != [];
  }

  /** Trimming a backslash-free text leaves no backslash-quote in it. */
  lemma TrimmedHasNoEscape(p: string)
    requires '\\' !in p
    ensures !Contains(Strip(p), "\\\"")
  {
    var q := Strip(p);
    var a :| TrimmedAt(p, q, IsSpace, a);
    assert forall x :: 0 <= x < |q| ==> q[x] == p[a + x];
    AbsentHead(q, "\\\"");
  }
}

=== FILE: tailor.dfy ===
/** The tailoring stage (`tailor_application`): the model is shown the query,
    the chosen listing's title, company and description, and the résumé; its
    reply is cleaned of a markdown fence and the first-`{`-to-last-`}` slice
    is decoded and returned as it stands. */
module Tailor {
  import opened Wrappers
  import opened Text
  import opened JsonModel
  import opened Failures
  import opened Extraction

  /** The chat model: its reply to a prompt built from the résumé, the query
      and the listing's title, company and description (each as Python
      formats the decoded value). The prompt's fixed wording is not modelled. */
  type TailorModel = (string, string, Json, Json, Json) -> string

  /** The listing fields the prompt reads, in the order it reads them. */
  const JobFields: seq<string> := ["title", "company", "description"]

  /** The first of the prompt's fields the listing lacks, or None when it has
      them all. */
  function MissingField(members: seq<(string, Json)>): (r: Option<string>)
    ensures r.None? <==> forall n :: 0 <= n < |JobFields| ==> Lookup(members, JobFields[n]).Some?
    ensures r.Some? ==> exists n :: 0 <= n < |JobFields| && r.value == JobFields[n]
                          && Lookup(members, JobFields[n]).None?
                          && forall m :: 0 <= m < n ==> Lookup(members, JobFields[m]).Some?
  {
    if Lookup(members, JobFields[0]).None? then Some(JobFields[0])
    else if Lookup(members, JobFields[1]).None? then Some(JobFields[1])
    else if Lookup(members, JobFields[2]).None? then Some(JobFields[2])
    else None
  }

  /** The fence step: the reply with surrounding whitespace removed and, when
      it then opens with "```", every leading and trailing backtick dropped,
      every "json" deleted, and the rest trimmed again. */
  function CleanReply(raw: string): (r: string)
    ensures !StartsWith(Strip(raw), "```") ==> r == Strip(raw)
    ensures StartsWith(Strip(raw), "```") ==>
              exists a, m :: TrimmedAt(Strip(raw), m, IsBacktick, a) && r == Strip(RemoveAll(m, "json"))
    ensures Strip(r) == r
  {
    var t := Strip(raw);
    TrimByIdempotent(raw, IsSpace);
    if StartsWith(t, "```") then
      var u := RemoveAll(TrimBy(t, IsBacktick), "json");
      TrimByIdempotent(u, IsSpace);
      Strip(u)
    else t
  }

  /** A fenced payload comes out as the payload with every "json" deleted and
      its whitespace trimmed. */
  lemma FencedPayload(p: string)
    requires p != [] && !IsBacktick(p[0]) && !IsBacktick(p[|p| - 1])
    ensures CleanReply("```" + p + "```") == Strip(RemoveAll(p, "json"))
  {
    var f := "```" + p + "```";
    FenceUnstripped(p, f);
    FenceOpened(p, f);
  }

  /** A fenced payload starts with the fence and has no whitespace to strip. */
  lemma FenceUnstripped(p: string, f: string)
    requires p != [] && f == "```" + p + "```"
    ensures Strip(f) == f && StartsWith(f, "```")
  {
    assert f[..3] == "```" && f[0] == '`' && f[|f| - 1] == '`';
    assert TrimmedAt(f, f, IsSpace, 0);
    TrimByUnique(f, f, IsSpace, 0);
  }

  /** Dropping the backticks at both ends of a fenced payload leaves the payload. */
  lemma FenceOpened(p: string, f: string)
    requires p != [] && !IsBacktick(p[0]) && !IsBacktick(p[|p| - 1])
    requires f == "```" + p + "```"
    ensures TrimBy(f, IsBacktick) == p
  {
    assert f[3..3 + |p|] == p;
    assert forall x :: 0 <= x < 3 ==> f[x] == '`';
    assert forall x :: 3 + |p| <= x < |f| ==> f[x] == '`';
    assert TrimmedAt(f, p, IsBacktick, 3);
    TrimByUnique(f, p, IsBacktick, 3);
  }

  /** The deletion of "json" is not limited to the fence's language tag: a
      payload that mentions "json" anywhere, keys and values included, is
      decoded in altered form; one that does not is decoded unaltered. */
  lemma FencedPayloadAltered(p: string)
    requires p != [] && !IsBacktick(p[0]) && !IsBacktick(p[|p| - 1])
    ensures Contains(p, "json") <==> RemoveAll(p, "json") != p
    ensures !Contains(p, "json") ==> CleanReply("```" + p + "```") == Strip(p)
  {
    FencedPayload(p);
    RemoveAllUnchanged(p, "json");
  }

  /** `tailor_application`. `resume` is the résumé file's text, or None when
      the file does not exist. A listing that is not an object cannot be
      subscripted; a missing field fails with that field's name. Whatever the
      decoder returns is the result. */
  function TailorApplication(job: Json, query: string, resume: Option<string>, model: TailorModel, parse: Parser): (r: Result<Json, Failure>)
    ensures resume.None? <==> r == Err(TailorResumeMissing)
    ensures resume.Some? ==> (r == Err(JobNotSubscriptable) <==> !job.JObject?)
    ensures resume.Some? && job.JObject? && MissingField(job.members).Some? ==>
              r == Err(JobFieldMissing(MissingField(job.members).value))
    ensures r.Err? && r.error.JobFieldMissing? ==>
              resume.Some? && job.JObject? && MissingField(job.members) == Some(r.error.key)
    ensures r.Ok? || r == Err(TailorNoJson) || r == Err(TailorBadJson) ==>
              && resume.Some? && job.JObject? && MissingField(job.members).None?
              && var raw := CleanReply(model(resume.value, query, Field(job, "title"),
                                             Field(job, "company"), Field(job, "description")));
                 && (r == Err(TailorNoJson) <==> !HasDelimSpan(raw, '{', '}'))
                 && (r.Ok? ==> MatchDecodesTo(raw, '{', '}', parse, Some(r.value)))
                 && (r == Err(TailorBadJson) ==> MatchDecodesTo(raw, '{', '}', parse, None))
    ensures r.Err? ==> r.error.TailorResumeMissing? || r.error.JobNotSubscriptable? || r.error.JobFieldMissing?
                       || r.error.TailorNoJson? || r.error.TailorBadJson?
  {
    if resume.None? then Err(TailorResumeMissing)
    else if !job.JObject? then Err(JobNotSubscriptable)
    else match MissingField(job.members)
      case Some(key) => Err(JobFieldMissing(key))
      case None =>
        var raw := CleanReply(model(resume.value, query, Field(job, "title"),
                                    Field(job, "company"), Field(job, "description")));
        var m := FirstToLast(raw, '{', '}');
        if m.None? then Err(TailorNoJson)
        else
          assert MatchDecodesTo(raw, '{', '}', parse, parse(m.value));
          if parse(m.value).None? then Err(TailorBadJson) else Ok(parse(m.value).value)
  }

  /** `job[key]` for a field the listing has. */
  function Field(job: Json, key: string): Json {
    if job.JObject? && Lookup(job.members, key).Some? then Lookup(job.members, key).value else JNull
  }
}

=== FILE: text.dfy ===
/** Python string primitives used by the pipeline, on strings as `seq<char>`:
    `str.strip`, `str.startswith`, the `in` substring test, `str.replace(p, "")`
    and the part of `str.lower` that decides whether an ASCII phrase occurs. */
module Text {

  /** Python's `str.isspace()`, which is also the set that `\s` matches in a
      `str` regular expression: TAB..CR, the separators U+001C..U+001F, SPACE,
      NEL, NBSP and the Unicode space separators. */
  predicate IsSpace(c: char) {
    || ('\t' <= c <= '\r')
    || ('\U{1C}' <= c <= ' ')
    || c == '\U{85}' || c == '\U{A0}' || c == '\U{1680}'
    || ('\U{2000}' <= c <= '\U{200A}')
    || c == '\U{2028}' || c == '\U{2029}' || c == '\U{202F}' || c == '\U{205F}' || c == '\U{3000}'
  }

  predicate IsBacktick(c: char) {
    c == '`'
  }

  /** The first index at or after `from` whose character is kept (not `drop`). */
  function KeepStart(s: string, drop: char -> bool, from: nat): (a: nat)
    requires from <= |s|
    ensures from <= a <= |s|
    ensures forall i :: from <= i < a ==> drop(s[i])
    ensures a < |s| ==> !drop(s[a])
    decreases |s| - from
  {
    if from < |s| && drop(s[from]) then KeepStart(s, drop, from + 1) else from
  }

  /** One past the last index below `upto` and at or after `low` whose character is kept. */
  function KeepEnd(s: string, drop: char -> bool, low: nat, upto: nat): (b: nat)
    requires low <= upto <= |s|
    ensures low <= b <= upto
    ensures forall i :: b <= i < upto ==> drop(s[i])
    ensures b > low ==> !drop(s[b - 1])
    decreases upto
  {
    if upto > low && drop(s[upto - 1]) then KeepEnd(s, drop, low, upto - 1) else upto
  }

  /** `r` is `s` with droppable characters cut off both ends, starting at `a`. */
  ghost predicate TrimmedAt(s: string, r: string, drop: char -> bool, a: int) {
    && 0 <= a <= |s| - |r|
    && r == s[a..a + |r|]
    && (forall i :: 0 <= i < a ==> drop(s[i]))
    && (forall i :: a + |r| <= i < |s| ==> drop(s[i]))
    && (r != [] ==> !drop(r[0]) && !drop(r[|r| - 1]))
  }

  /** Python's `s.strip(chars)` for the character set described by `drop`:
      the result is a slice of `s` whose two ends are not in the set and
      everything cut away on either side is. */
  function TrimBy(s: string, drop: char -> bool): (r: string)
    ensures exists a :: TrimmedAt(s, r, drop, a)
  {
    var a := KeepStart(s, drop, 0);
    var b := KeepEnd(s, drop, a, |s|);
    assert TrimmedAt(s, s[a..b], drop, a);
    s[a..b]
  }

  /** Python's `s.strip()`. */
  function Strip(s: string): string {
    TrimBy(s, IsSpace)
  }

  /** Trimming is determined by what it keeps: cutting only droppable
      characters off both ends of a string whose ends are kept gives it back. */
  lemma TrimByUnique(s: string, m: string, drop: char -> bool, a: int)
    requires TrimmedAt(s, m, drop, a)
    ensures TrimBy(s, drop) == m
  {
    var r := TrimBy(s, drop);
    var a' :| TrimmedAt(s, r, drop, a');
    if m != [] {
      assert s[a] == m[0] && s[a + |m| - 1] == m[|m| - 1];
    }
    if r != [] {
      assert s[a'] == r[0] && s[a' + |r| - 1] == r[|r| - 1];
    }
    assert |r| == 0 <==> |m| == 0;
    if m != [] {
      assert a == a';
      assert |r| == |m|;
    }
  }

  /** Stripping twice is stripping once. */
  lemma TrimByIdempotent(s: string, drop: char -> bool)
    ensures TrimBy(TrimBy(s, drop), drop) == TrimBy(s, drop)
  {
    var r := TrimBy(s, drop);
    var a :| TrimmedAt(s, r, drop, a);
    assert TrimmedAt(r, r, drop, 0);
    TrimByUnique(r, r, drop, 0);
  }

  /** Output printed after earlier lines and followed by a newline: when it
      neither starts nor ends with whitespace, stripping the whole keeps it
      and what follows the leading whitespace of the earlier lines. */
  lemma StripAround(logs: string, d: string) returns (a: nat)
    requires d != [] && !IsSpace(d[0]) && !IsSpace(d[|d| - 1])
    ensures a <= |logs| && Strip(logs + d + "\n") == logs[a..] + d
  {
    var s := logs + d + "\n";
    a := SkipSpaces(s, 0);
    assert s[|logs|] == d[0];
    assert !SpaceAt(s, |logs|);
    var m := s[a..|logs| + |d|];
    assert m == logs[a..] + d;
    assert s[|logs| + |d|] == '\n';
    assert m[|m| - 1] == d[|d| - 1];
    forall i | 0 <= i < a ensures IsSpace(s[i]) {
      assert SpaceAt(s, i);
    }
    assert TrimmedAt(s, m, IsSpace, a);
    TrimByUnique(s, m, IsSpace, a);
  }

  /** `t[x]` exists and is whitespace. */
  predicate SpaceAt(t: string, x: int) {
    0 <= x < |t| && IsSpace(t[x])
  }

  /** The first index at or after `p` that is not whitespace, or `|t|`. */
  function SkipSpaces(t: string, p: nat): (q: nat)
    requires p <= |t|
    ensures p <= q <= |t|
    ensures forall x :: p <= x < q ==> SpaceAt(t, x)
    ensures q < |t| ==> !IsSpace(t[q])
    decreases |t| - p
  {
    if p < |t| && IsSpace(t[p]) then SkipSpaces(t, p + 1) else p
  }

  /** The whitespace run after `p` ends at the first non-space character. */
  lemma SkipSpacesUnique(t: string, p: nat, q: nat)
    requires p <= q < |t| && !IsSpace(t[q])
    requires forall x :: p <= x < q ==> SpaceAt(t, x)
    ensures SkipSpaces(t, p) == q
    decreases q - p
  {
    if p < q {
      assert SpaceAt(t, p);
      SkipSpacesUnique(t, p + 1, q);
    }
  }

  /** Skipping from a later point never ends earlier. */
  lemma SkipSpacesMonotone(t: string, p: nat, p': nat)
    requires p <= p' <= |t|
    ensures SkipSpaces(t, p) <= SkipSpaces(t, p')
    decreases p' - p
  {
    if p < p' && IsSpace(t[p]) {
      SkipSpacesMonotone(t, p + 1, p');
    }
  }

  /** The first index at or after `from` holding `c`, or `|t|`. */
  function FirstIndex(t: string, c: char, from: nat): (i: nat)
    requires from <= |t|
    ensures from <= i <= |t|
    ensures i < |t| ==> t[i] == c
    ensures forall x :: from <= x < i ==> t[x] != c
    decreases |t| - from
  {
    if from < |t| && t[from] != c then FirstIndex(t, c, from + 1) else from
  }

  /** The last index below `upto` holding `c`, or -1. */
  function LastIndex(t: string, c: char, upto: nat): (k: int)
    requires upto <= |t|
    ensures -1 <= k < upto
    ensures k >= 0 ==> t[k] == c
    ensures forall x :: k < x < upto ==> t[x] != c
    decreases upto
  {
    if upto == 0 then -1 else if t[upto - 1] == c then upto - 1 else LastIndex(t, c, upto - 1)
  }

  /** Python's `s.startswith(p)`. */
  predicate StartsWith(s: string, p: string) {
    |p| <= |s| && s[..|p|] == p
  }

  /** Python's `p in s` for strings: `p` occurs somewhere in `s`. */
  predicate Contains(s: string, p: string)
    decreases |s|
  {
    StartsWith(s, p) || (s != [] && Contains(s[1..], p))
  }

  /** `p` occurs in `s` starting at index `i`. */
  ghost predicate OccursAt(s: string, p: string, i: int) {
    0 <= i <= |s| - |p| && s[i..i + |p|] == p
  }

  /** `Contains` holds exactly when `p` occurs at some index of `s`. */
  lemma {:induction false} ContainsAt(s: string, p: string)
    ensures Contains(s, p) <==> exists i :: OccursAt(s, p, i)
    decreases |s|
  {
    if s != [] {
      ContainsAt(s[1..], p);
      if Contains(s[1..], p) {
        var i :| OccursAt(s[1..], p, i);
        assert s[i + 1..i + 1 + |p|] == s[1..][i..i + |p|];
        assert OccursAt(s, p, i + 1);
      }
      forall i | OccursAt(s, p, i) && i >= 1
        ensures OccursAt(s[1..], p, i - 1)
      {
        assert s[i..i + |p|] == s[1..][i - 1..i - 1 + |p|];
      }
      if StartsWith(s, p) {
        assert OccursAt(s, p, 0);
      }
    } else {
      if StartsWith(s, p) {
        assert OccursAt(s, p, 0);
      }
    }
  }

  /** An occurrence inside a piece is an occurrence in the whole. */
  lemma ContainsInContext(a: string, m: string, b: string, p: string)
    requires Contains(m, p)
    ensures Contains(a + m + b, p)
  {
    ContainsAt(m, p);
    var i :| OccursAt(m, p, i);
    var s := a + m + b;
    assert s[|a| + i..|a| + i + |p|] == m[i..i + |p|];
    assert OccursAt(s, p, |a| + i);
    ContainsAt(s, p);
  }

  /** An occurrence inside a slice is an occurrence in the string. */
  lemma ContainsSlice(s: string, a: nat, b: nat, p: string)
    requires a <= b <= |s|
    ensures Contains(s[a..b], p) ==> Contains(s, p)
  {
    if Contains(s[a..b], p) {
      ContainsInContext(s[..a], s[a..b], s[b..], p);
      assert s[..a] + s[a..b] + s[b..] == s;
    }
  }

  /** A string too short for `p` does not contain it. */
  lemma TooShort(s: string, p: string)
    requires |s| < |p|
    ensures !Contains(s, p)
  {
    ContainsAt(s, p);
  }

  /** A pattern whose first character never occurs does not occur. */
  lemma {:induction false} AbsentHead(s: string, p: string)
    requires p != [] && p[0] !in s
    ensures !Contains(s, p)
    decreases |s|
  {
    if s != [] {
      assert p[0] !in s[1..];
      AbsentHead(s[1..], p);
    }
  }

  /** A two-character pattern occurs exactly where its two characters stand
      side by side. */
  lemma PairOccurrence(s: string, p: string)
    requires |p| == 2
    ensures Contains(s, p) <==> exists i :: 0 <= i < |s| - 1 && s[i] == p[0] && s[i + 1] == p[1]
  {
    ContainsAt(s, p);
    if Contains(s, p) {
      var i :| OccursAt(s, p, i);
      assert s[i..i + 2][0] == s[i] && s[i..i + 2][1] == s[i + 1];
    }
    forall i | 0 <= i < |s| - 1 && s[i] == p[0] && s[i + 1] == p[1] ensures OccursAt(s, p, i) {
      assert s[i..i + 2] == [p[0], p[1]] == p;
    }
  }

  /** Python's `s.replace(p, "")`: every occurrence of `p` found scanning
      from the left, without overlaps, is deleted. */
  function RemoveAll(s: string, p: string): (r: string)
    requires p != []
    decreases |s|
  {
    if s == [] then []
    else if StartsWith(s, p) then RemoveAll(s[|p|..], p)
    else [s[0]] + RemoveAll(s[1..], p)
  }

  /** Deleting never lengthens, and shortens whenever there is something to delete. */
  lemma {:induction false} RemoveAllLength(s: string, p: string)
    requires p != []
    ensures |RemoveAll(s, p)| <= |s|
    ensures Contains(s, p) ==> |RemoveAll(s, p)| < |s|
    decreases |s|
  {
    if s != [] {
      if StartsWith(s, p) {
        RemoveAllLength(s[|p|..], p);
      } else {
        RemoveAllLength(s[1..], p);
      }
    }
  }

  /** `replace(p, "")` changes a string exactly when `p` occurs in it. */
  lemma {:induction false} RemoveAllUnchanged(s: string, p: string)
    requires p != []
    ensures RemoveAll(s, p) == s <==> !Contains(s, p)
    decreases |s|
  {
    RemoveAllLength(s, p);
    if s != [] && !StartsWith(s, p) {
      RemoveAllUnchanged(s[1..], p);
    }
  }

  /** Scanning a string that does not start with a backtick keeps its first character. */
  lemma RemoveFenceKeepsHead(s: string)
    requires s != [] && s[0] != '`'
    ensures RemoveAll(s, "```") == [s[0]] + RemoveAll(s[1..], "```")
  {
  }

  /** After `replace("```", "")` no triple backtick is left: the left-to-right
      scan reduces every run of backticks to fewer than three. */
  lemma {:induction false} RemoveFenceLeavesNone(s: string)
    ensures !Contains(RemoveAll(s, "```"), "```")
    decreases |s|
  {
    var f := "```";
    if s == [] {
    } else if StartsWith(s, f) {
      RemoveFenceLeavesNone(s[3..]);
    } else {
      var tail := RemoveAll(s[1..], f);
      RemoveFenceLeavesNone(s[1..]);
      var r := [s[0]] + tail;
      assert r[1..] == tail;
      if s[0] == '`' && |s| >= 2 {
        if s[1] != '`' {
          RemoveFenceKeepsHead(s[1..]);
        } else if |s| == 2 {
          assert s[1..] == "`";
          assert tail == "`";
        } else {
          assert s[2] != '`';
          assert s[1..][1..] == s[2..];
          assert tail == ['`'] + RemoveAll(s[2..], f);
          RemoveFenceKeepsHead(s[2..]);
        }
      }
      assert !StartsWith(r, f);
    }
  }

  /** Deleting "```" from a text free of "```" followed by a fence leaves the
      text: a backtick or two at the text's end join the fence's run, and the
      left-to-right scan deletes the first three backticks of that run. */
  lemma {:induction false} RemoveTrailingFence(p: string)
    requires !Contains(p, "```")
    ensures RemoveAll(p + "```", "```") == p
    decreases |p|
  {
    var f := "```";
    var s := p + f;
    if p == [] {
      assert s == f;
    } else if StartsWith(s, f) {
      if |p| >= 3 {
        assert false;
      } else if |p| == 1 {
        assert p[0] == s[..3][0];
        assert p == "`" && s[3..] == "`";
        assert RemoveAll("`", f) == "`";
      } else {
        assert p[0] == s[..3][0] && p[1] == s[..3][1];
        assert p == "``" && s[3..] == "``";
        assert RemoveAll("``"[1..], f) == "`";
      }
    } else {
      assert s[1..] == p[1..] + f;
      RemoveTrailingFence(p[1..]);
    }
  }

  /** ASCII upper-case letters lowered; the two non-ASCII characters whose
      Python lower-case form contains an ASCII letter (U+0130, which lowers to
      "i" followed by U+0307, and the Kelvin sign U+212A, which lowers to "k");
      every other character is kept, since any other lower-case mapping stays
      outside ASCII and so cannot create or destroy an ASCII phrase. */
  function LowerChar(c: char): string {
    if c == '\U{130}' then "i\U{307}" else [LowerOne(c)]
  }

  /** The lower-case form of a character other than U+0130, which is the one
      character here whose lower-case form is two characters long. */
  function LowerOne(c: char): char {
    if 'A' <= c <= 'Z' then (c as int + 32) as char
    else if c == '\U{212A}' then 'k'
    else c
  }

  /** Python's `s.lower()`, as far as containment of ASCII phrases goes. */
  function Lower(s: string): string {
    if s == [] then [] else LowerChar(s[0]) + Lower(s[1..])
  }

  lemma {:induction false} LowerConcat(a: string, b: string)
    ensures Lower(a + b) == Lower(a) + Lower(b)
    decreases |a|
  {
    if a != [] {
      assert (a + b)[1..] == a[1..] + b;
      LowerConcat(a[1..], b);
    } else {
      assert a + b == b;
    }
  }

  /** Lowering a string lowers each of its pieces. */
  lemma LowerConcat3(x: string, y: string, z: string)
    ensures Lower(x + y + z) == Lower(x) + Lower(y) + Lower(z)
  {
    LowerConcat(x + y, z);
    LowerConcat(x, y);
  }

  /** Without U+0130 lowering maps character to character. */
  lemma {:induction false} LowerPointwise(s: string)
    requires forall i :: 0 <= i < |s| ==> s[i] != '\U{130}'
    ensures |Lower(s)| == |s|
    ensures forall i :: 0 <= i < |s| ==> Lower(s)[i] == LowerOne(s[i])
    decreases |s|
  {
    if s != [] {
      LowerPointwise(s[1..]);
      assert Lower(s) == [LowerOne(s[0])] + Lower(s[1..]);
    }
  }
}

=== FILE: wrappers.dfy ===
/** `Option` and `Result`, shared by every stage of the model. */
module Wrappers {

  /** A value that may be absent: Python's `None` versus a present value. */
  datatype Option<T> = None | Some(value: T)

  /** The outcome of a stage: a value, or the exception the stage raises. */
  datatype Result<T, E> = Ok(value: T) | Err(error: E)
}
